=== FILE: README.md ===
# Device document loading and upgrade, in Dafny

This project models the core of `microdrop_device_converter/dmf_device.py`. That code reads a MicroDrop
device document, brings it up to the current schema and flattens it into a vertex table. The model covers:

- **Loading** (`DmfDevice.load`). Three decoders are tried in order:
  - pickle on the file's bytes;
  - pickle again after renaming the old module path `microdrop.dmf_device`;
  - YAML.

  When none of them produces a device, the load fails with `TypeError`. A document without a `version`
  is taken to be at `'0'`. The result is then upgraded.
- **The version state machine** (`DmfDevice._upgrade`). The document's version is read once:
  - newer than `0.3.0` fails with `FutureVersionError`;
  - equal to `0.3.0` is left untouched;
  - older takes every milestone step above it, in order.

  The steps are:
  - 0.1 sets `scale` to `None`;
  - 0.2 drops each electrode's `state` attribute;
  - 0.3 traces every legacy command list into loops, groups the traced paths inside the rectangle spanned by
    all electrode extents, replaces the electrodes by fresh ones and hands each legacy electrode's channel list to
    the new electrode registered under its name `str(id)`. The grouping goes through `self.add_path_group`,
    which `DmfDevice` does not define and does not inherit (the class has no base class). As written, this
    step therefore raises `AttributeError` for every non-empty pre-0.3 document whose electrodes all carry legacy
    geometry and whose coordinates all convert. The model
    supplies the method the code evidently expects; see "## Findings".
- **The electrode counter** (`Electrode.next_id`), a class attribute in the code. Here it is an explicit value
  threaded through every operation that creates electrodes.
- **`DmfDevice.__init__`**, the defaults of a fresh device.
- **`DmfDevice.to_frame`**, one row per outline vertex with the shape id `electrode%03d`, the fill style and
  the comma-joined channel list. The coordinate step of `to_svg` is included: it shifts the table to a zero
  minimum and converts it to millimetres.

Modules:

- `Wrappers` holds `Option` and `Result`.
- `Versions` holds the version triples and the milestones.
- `Decimal` holds Python's decimal text forms, each paired with a reader.
- `DeviceModel` holds the device, the electrodes and the errors.
- `Rebase` holds the 0.3 step.
- `Migration` holds `_upgrade`.
- `Loader` holds `load`.
- `Flatten` holds `to_frame`.

The collaborators whose code is not part of this model become parameters:

- the pickle and YAML decoders (`Loader.Codecs`);
- `LoopTracer.to_loops` and Python's `float` on text (`Rebase.Tracer`).

### Failures and defaults worth noting

- When no decoder recognises the bytes, `load` raises `TypeError` (dmf_device.py line 120).
- The 0.3 step absorbs only the tracer's `ParseError` and `KeyError` (lines 184-187). Those electrodes are
  dropped, and the load goes on. Other failures abort the whole load:
  - `float`'s `ValueError` on a coordinate that is not a number is not among the absorbed exceptions. This is
    `BadCoordinate` in the model.
  - A document older than 0.3 with no electrodes fails in `min` at line 155 (`EmptyElectrodeSet`). A document
    already at 0.3.0 with no electrodes loads unchanged (`Loader.LoadCurrentUnchanged`).
- A fresh device has `x_min`/`y_min` set to infinity but `x_max`/`y_max` set to `0` (lines 58-61). So does
  `DeviceModel.NewDevice`.

## Model

| member | source | states |
|---|---|---|
| DeviceModel.NewDevice | microdrop_device_converter/dmf_device.py:56-67 | a fresh device is at the current schema 0.3, has no name, `scale` and `path_group` set to `None`, extents `(inf, 0, inf, 0)`, no electrodes, and name maps that are consistent (empty) |
| Migration.NewDeviceNeedsNoUpgrade | microdrop_device_converter/dmf_device.py:56-67 | a fresh device is already current: `_upgrade` leaves it and the counter as they are |
| Flatten.NewDeviceFlattensEmpty | microdrop_device_converter/dmf_device.py:56-67 | a fresh device flattens to the empty table with the six columns |
| DeviceModel.NewElectrode | microdrop_device_converter/dmf_device.py:264-270 | a new electrode takes the counter's value as its id, the counter advances by exactly one, and the electrode holds the given path with no channels |
| Loader.ReplaceAll | microdrop_device_converter/dmf_device.py:99-102 | renaming the module path leaves bytes that never mention it unchanged, and makes bytes that do mention it strictly longer |
| Loader.RenameChangesIffOccurs | microdrop_device_converter/dmf_device.py:99-102 | the renamed bytes differ from the original exactly when the old module path occurs in them |
| Loader.Decode | microdrop_device_converter/dmf_device.py:86-117 | decoding yields nothing exactly when pickle, pickle after the rename, and YAML all fail |
| Loader.DecodeIsFirstSome | microdrop_device_converter/dmf_device.py:86-117 | the decoded object is that of the first attempt, in the order pickle, renamed pickle, YAML, that produced one |
| Loader.RenameRetryRedundant | microdrop_device_converter/dmf_device.py:96-107 | for bytes without the old module path the renamed retry decides nothing: the result is pickle's, else YAML's |
| Loader.WithDefaultVersion | microdrop_device_converter/dmf_device.py:121-122 | a document without a version gets the oldest version `0` and nothing else changes; a versioned document is untouched |
| Loader.Load | microdrop_device_converter/dmf_device.py:86-124 | loading fails with `TypeError` exactly when no decoder recognises the bytes; a loaded device is at the current schema, keeps its name, and, when it had no version, has `scale` set to `None`; the counter never goes back |
| Loader.LoadCurrentUnchanged | microdrop_device_converter/dmf_device.py:118-124 | a document written at the current schema loads back exactly as decoded, with the counter unchanged |
| Loader.LoadFutureFails | microdrop_device_converter/dmf_device.py:135-139 | a document from a newer schema is refused with `FutureVersionError` |
| Loader.LoadUnversionedTakesEveryStep | microdrop_device_converter/dmf_device.py:121-153 | an unversioned document is upgraded as one at `0`: through every milestone in order |
| Loader.SequentialLoadsFreshIds | microdrop_device_converter/dmf_device.py:264-270 | two legacy documents loaded one after the other, threading the counter, get electrodes whose ids never clash |
| Migration.StepTo01 | microdrop_device_converter/dmf_device.py:141-144 | the 0.1 step sets the version to 0.1 and `scale` to `None` and changes nothing else |
| Migration.DropStates | microdrop_device_converter/dmf_device.py:147-149 | every electrode loses its `state`, and no other field of any electrode changes |
| Migration.StepTo02 | microdrop_device_converter/dmf_device.py:145-150 | the 0.2 step sets the version to 0.2 and leaves every electrode without `state`; it changes nothing else |
| Migration.Upgrade | microdrop_device_converter/dmf_device.py:126-199 | upgrading fails exactly when the document is newer (`FutureVersionError`) or older with an empty or non-legacy electrode set, or with a coordinate that does not convert; an equal version is left untouched; on success the device is at the current schema, keeps its name, has `scale` reset when older than 0.1, and an older document has only fresh, traced electrodes with ids drawn from the counter |
| Migration.UpgradeFollowsMilestones | microdrop_device_converter/dmf_device.py:135-199 | `_upgrade` equals walking the milestones 0.1, 0.2, 0.3 in order, taking each step the captured version is older than and stopping at the first exception |
| Migration.UpgradeIdempotent | microdrop_device_converter/dmf_device.py:137-199 | upgrading an upgraded device changes nothing, not even the counter |
| Migration.UpgradeStepwise | microdrop_device_converter/dmf_device.py:140-153 | taking the first pending milestone step and then upgrading gives the same result as upgrading directly |
| Versions.MilestonesIncrease | microdrop_device_converter/dmf_device.py:141-153 | the milestones strictly increase from the oldest version and end at the current schema |
| Versions.LessIsStrictTotalOrder | microdrop_device_converter/dmf_device.py:137-140 | version comparison is a strict total order, so exactly one of the newer, older and equal branches is taken |
| Rebase.Drawable | microdrop_device_converter/dmf_device.py:168-175 | the commands kept for tracing are no more than the original ones and each carries `command`, `x` and `y`; when every command carries all three, all are kept as they are |
| Rebase.DrawableAt | microdrop_device_converter/dmf_device.py:168-178 | each command contributes itself, in its place, exactly when it carries `command`, `x` and `y` |
| Rebase.DrawTuples | microdrop_device_converter/dmf_device.py:168-178 | the tuple list exists exactly when every complete command's coordinates convert, and its entries are those commands' tuples, in order |
| Rebase.IncompleteCommandSkipped | microdrop_device_converter/dmf_device.py:169-175 | a command lacking one of the three keys is skipped: removing it changes nothing |
| Rebase.PathTuples | microdrop_device_converter/dmf_device.py:167-179 | the tracer receives the drawing tuple of each complete command, in order, closed by a single `('Z',)` |
| Rebase.TraceElectrode | microdrop_device_converter/dmf_device.py:166-187 | tracing one electrode fails (`ValueError`) exactly when a coordinate does not convert; it yields a path, coloured blue and holding the loops the tracer returned, exactly when the tracer returns loops; the tracer's `ParseError`/`KeyError` give no path and no error |
| Rebase.TracePaths | microdrop_device_converter/dmf_device.py:163-187 | filling `traced_paths` fails exactly when some electrode's coordinates do not convert |
| Rebase.TracedIsListed | microdrop_device_converter/dmf_device.py:165-183 | every electrode the tracer accepts has its path listed under `str(id)` |
| Rebase.ListedIsTraced | microdrop_device_converter/dmf_device.py:165-183 | every listed path is the traced path of some electrode, under that electrode's `str(id)` |
| Rebase.TracedNamesDistinct | microdrop_device_converter/dmf_device.py:183 | distinct electrode ids give distinct keys in `traced_paths` |
| Rebase.LegacyExtents | microdrop_device_converter/dmf_device.py:155-158 | the combined extents contain every electrode's box, and each side is attained by some electrode |
| Rebase.AddPathGroup | microdrop_device_converter/dmf_device.py:188-191 | adding the group appends one fresh electrode per path, takes ids from the counter, and rebuilds both name maps from the group |
| Rebase.FreshElectrodes | microdrop_device_converter/dmf_device.py:191 | the `k`-th path becomes an electrode with id `nextId + k`, that traced path, no channels and no `state` |
| Rebase.NameMap | microdrop_device_converter/dmf_device.py:191 | each group name maps to the id of its fresh electrode, and every key is a group name |
| Rebase.IdMap | microdrop_device_converter/dmf_device.py:191 | each fresh id maps to its group name, and no other id is a key |
| Rebase.Reattach | microdrop_device_converter/dmf_device.py:193-196 | the hand-over keeps the electrodes and changes only their channel lists |
| Rebase.ReattachUntargeted | microdrop_device_converter/dmf_device.py:193-196 | a new electrode that no legacy name targets keeps its channels |
| Rebase.ReattachCopies | microdrop_device_converter/dmf_device.py:193-196 | a targeted new electrode ends with exactly the channel list of the legacy electrode that targets it |
| Rebase.GroupMapsConsistent | microdrop_device_converter/dmf_device.py:188-191 | after adding the group the two name maps are inverse and name exactly the fresh electrodes |
| Rebase.Rebuild | microdrop_device_converter/dmf_device.py:188-197 | the rebuilt device has exactly one fresh, traced electrode per traced path, with consecutive ids from the counter, its name map is the group's, and its maps are consistent; the other fields are kept |
| Rebase.StepTo03 | microdrop_device_converter/dmf_device.py:151-198 | the 0.3 step fails exactly on a non-legacy electrode (`AttributeError`), an empty device (`ValueError` of `min`) or an unconvertible coordinate; on success the version is 0.3, the boundary spans all extents, the electrodes are fresh and traced, the maps are consistent, and nothing else changes |
| Rebase.StepTo03AsWritten | microdrop_device_converter/dmf_device.py:151-191 | the 0.3 step as written always fails: it fails with `AttributeError` on the missing `add_path_group` exactly when the corrected step would succeed, and otherwise with the corrected step's own error |
| Rebase.AsWrittenRejectsLegacyDocument | microdrop_device_converter/dmf_device.py:188-191 | a version-0 document with one legacy electrode is rejected by the step as written but upgraded by the corrected step |
| Rebase.RebaseMapsTracedOnly | microdrop_device_converter/dmf_device.py:163-196 | after the 0.3 step a legacy electrode's `str(id)` is in the name map exactly when its tracing succeeded |
| Rebase.RebaseReattachesChannels | microdrop_device_converter/dmf_device.py:193-197 | after the 0.3 step the new electrode registered under a traced legacy electrode's name carries that electrode's channel list |
| Rebase.RebaseKeepsOutline | microdrop_device_converter/dmf_device.py:180-196 | that new electrode carries the legacy electrode's traced path |
| Rebase.RebaseReplacesNameMap | microdrop_device_converter/dmf_device.py:189-191 | every name in the name map after the 0.3 step is the `str(id)` of a traced legacy electrode; this follows from the assumed `add_path_group` contract, which rebuilds the name maps |
| Decimal.DigitsRoundTrip | microdrop_device_converter/dmf_device.py:183 | `str(id)` reads back as `id` |
| Decimal.NatToStringInjective | microdrop_device_converter/dmf_device.py:183 | distinct ids have distinct `str(id)` names |
| Decimal.ZeroPadValue | microdrop_device_converter/dmf_device.py:212 | padding a digit string with leading zeros keeps it all digits and keeps its value |
| Decimal.IntRoundTrip | microdrop_device_converter/dmf_device.py:213-214 | `'%d'`/`str` of any integer, negative included, reads back as that integer |
| Decimal.SplitJoin | microdrop_device_converter/dmf_device.py:214 | splitting a comma-joined list of comma-free pieces gives the pieces back |
| Decimal.ParseIntStrings | microdrop_device_converter/dmf_device.py:214 | a list of integers written with `str` reads back as that list |
| Flatten.ShapeId | microdrop_device_converter/dmf_device.py:212 | the shape id starts with `electrode` followed by at least three characters |
| Flatten.ShapeIdRoundTrip | microdrop_device_converter/dmf_device.py:212 | `'electrode%03d' % i` reads back as `i` |
| Flatten.ShapeIdInjective | microdrop_device_converter/dmf_device.py:212 | distinct electrodes get distinct shape ids, also past three digits |
| Flatten.StyleRoundTrip | microdrop_device_converter/dmf_device.py:213 | the fill style reads back as the electrode's colour |
| Flatten.ChannelsText | microdrop_device_converter/dmf_device.py:214 | the channel text is empty exactly when the channel list is |
| Flatten.ChannelsRoundTrip | microdrop_device_converter/dmf_device.py:214 | the comma-joined channel text reads back as the channel list, empty included |
| Flatten.ElectrodeRows | microdrop_device_converter/dmf_device.py:211-219 | one electrode flattens exactly when it has a traced path with a loop, with one row per outline vertex in order; otherwise `AttributeError` for a legacy path or `IndexError` for no loops |
| Flatten.Rows | microdrop_device_converter/dmf_device.py:209-219 | flattening fails exactly when some electrode cannot be flattened |
| Flatten.RowsFailAtFirst | microdrop_device_converter/dmf_device.py:211-219 | the first electrode that cannot be flattened decides the exception |
| Flatten.ToFrame | microdrop_device_converter/dmf_device.py:209-224 | the frame always has the six columns, succeeds exactly when every electrode can be flattened, and is empty without electrodes |
| Flatten.RowsSound | microdrop_device_converter/dmf_device.py:211-219 | every row is the row of some outline vertex of some electrode |
| Flatten.RowsComplete | microdrop_device_converter/dmf_device.py:211-219 | every outline vertex of every electrode has its row |
| Flatten.FrameRowDecodes | microdrop_device_converter/dmf_device.py:209-224 | every row of the frame reads back as the id, colour, channel list and an outline vertex of one electrode of the device |
| Flatten.Normalize | microdrop_device_converter/dmf_device.py:247-251 | after the coordinate step of `to_svg` every coordinate is non-negative, the smallest x and the smallest y of a non-empty table are zero, the other columns are unchanged, and one table-wide offset and the pixels-per-millimetre factor give back every original coordinate |
| Flatten.FrameCoversEveryVertex | microdrop_device_converter/dmf_device.py:209-224 | every outline vertex of every electrode appears in the frame |

## Findings

| source | as written | input that shows it | evidently intended | confidence | as-written member | corrected member |
|---|---|---|---|---|---|---|
| microdrop_device_converter/dmf_device.py:191 | the 0.3 step calls `self.add_path_group(path_group)`, but `DmfDevice` has no base class and defines no such method, so the call raises `AttributeError` | a version-0 document with one electrode whose command list has no drawable command, traced with a tracer that reports a parse error (`Rebase.AsWrittenRejectsLegacyDocument`) | the group is added to the device: one fresh electrode per path, both name maps rebuilt, the group kept as `path_group` | not executed | Rebase.StepTo03AsWritten | Rebase.StepTo03 |

## Left out

- The decoders themselves, pickle and YAML, are not modelled. They are `Loader.Codecs` parameters, and "raised" and "returned `None`" are one outcome, as in `load`. File reading is the byte string itself.
- A decoder returning an object that is not a device is not modelled: the decoders return `Device` values.
- Logging is left out; it has no effect on the result.
- The `sys.path` adjustment at lines 42-47 lets the first pickle attempt resolve files that name the top-level
  `dmf_device` module. Its effect is part of the abstract `Loader.Codecs.pickle`.
- The `electrodes` dict is keyed by electrode id. The model takes each key to equal the electrode's own `id`,
  which is what `str(id)` at lines 183 and 194 and `'electrode%03d' % i` at line 212 then use. A dict whose
  keys differ from the ids is not represented.
- `LoopTracer.to_loops` and `float` on text are parameters (`Rebase.Tracer`).
  - Exceptions of the tracer other than `ParseError` and `KeyError` are not modelled, because they would escape `load` unchanged.
  - Coordinates are reals; Python's float rounding is not modelled.
- svg_model's `ColoredPath`, `Path`, `Loop` and `PathGroup` are reduced to the fields this code reads: the loops, the vertices and the colour.
- `Version.fromstring` and version strings are not modelled. Versions are `major.minor.micro` triples, so a malformed version string is not represented.
- Python 2 dict iteration order is arbitrary. The electrodes are a sequence in one fixed iteration order, and the traced group and the frame rows follow it.
- `DmfDevice.to_svg` is modelled only for its coordinate step (`Flatten.Normalize`). The value of `INKSCAPE_PPmm` is a parameter, and floating-point rounding of the division is not modelled. The drawing, connection detection and layer merging it calls belong to svg_model and are left out.
- `Electrode.area`, `convert_device_to_svg` in `__init__.py`, the command line in `__main__.py` and `pavement.py` are left out. They render or package; they do not load or upgrade.
- `Rebase.AddPathGroup`: `DmfDevice` defines no `add_path_group` and has no base class. As written, line 191 therefore raises `AttributeError` for every non-empty pre-0.3 document whose electrodes all carry legacy geometry and whose coordinates all convert (`Rebase.StepTo03AsWritten`). The model supplies an assumed method instead. It creates one electrode per path of the group in group order with ids from the counter, rebuilds both name maps, and stores the group as `path_group`. It does not update the device's extents. Every success of the 0.3 step, and so every fact about a successfully upgraded pre-0.3 document, rests on this assumed method. As written, none of those successes can happen. This covers the success facts of `Rebase.Rebuild`, `Rebase.StepTo03`, `Migration.Upgrade` and `Loader.Load` for a document older than 0.3: the boundary, the `pathGroup` field, the fresh traced electrodes with ids from the counter, and the consistent name maps. It also covers `Rebase.RebaseMapsTracedOnly`, `Rebase.RebaseReattachesChannels`, `Rebase.RebaseKeepsOutline`, `Rebase.RebaseReplacesNameMap` (lines 193-196 read the name map only this method fills) and `Loader.SequentialLoadsFreshIds`.
- `Loader.ReplaceAll`: the contract states only that bytes without the old module path are unchanged and that bytes with it grow. It does not give the full rewritten text.
- `Migration.Upgrade`: requires the version attribute to be present, which `load` always ensures first. A device constructed without one cannot reach `_upgrade` through `load`.
- `Flatten.Style`: colours are integers. `%d` applied to a non-integer colour component is not modelled.
- Concurrent use of the electrode counter is not modelled. The counter is an explicit value threaded by the caller.

=== FILE: decimal.dfy ===
/** Decimal text as Python 2 writes it -- `str(n)`, `'%d' % n`, `'%03d' % n`,
    `','.join(...)` -- each paired with a reader that recovers the value. */
module Decimal {
  import opened Wrappers

  predicate IsDigit(c: char) {
    '0' <= c <= '9'
  }

  predicate AllDigits(s: string) {
    forall i :: 0 <= i < |s| ==> IsDigit(s[i])
  }

  predicate NoComma(s: string) {
    forall i :: 0 <= i < |s| ==> s[i] != ','
  }

  function DigitChar(d: nat): (c: char)
    requires d < 10
    ensures IsDigit(c)
    ensures c as int - '0' as int == d
  {
    ('0' as int + d) as char
  }

  function DigitValue(c: char): (d: nat)
    requires IsDigit(c)
    ensures d < 10
  {
    c as int - '0' as int
  }

  /** `str(n)` for a non-negative integer: the shortest decimal form. */
  function NatToString(n: nat): (s: string)
    ensures 1 <= |s|
    ensures AllDigits(s)
    ensures n < 10 <==> |s| == 1
  {
    if n < 10 then [DigitChar(n)] else NatToString(n / 10) + [DigitChar(n % 10)]
  }

  /** The value of a digit string read left to right; leading zeros are allowed. */
  function DigitsValue(s: string): nat
    requires AllDigits(s)
  {
    if s == [] then 0 else DigitsValue(s[..|s| - 1]) * 10 + DigitValue(s[|s| - 1])
  }

  /** Reading back `str(n)` gives `n`. */
  lemma {:induction false} DigitsRoundTrip(n: nat)
    ensures DigitsValue(NatToString(n)) == n
  {
    if n >= 10 {
      var s := NatToString(n);
      assert s[..|s| - 1] == NatToString(n / 10);
      DigitsRoundTrip(n / 10);
    }
  }

  /** Distinct numbers have distinct decimal forms, so `str(id)` is a faithful name. */
  lemma NatToStringInjective(m: nat, n: nat)
    ensures NatToString(m) == NatToString(n) ==> m == n
  {
    DigitsRoundTrip(m);
    DigitsRoundTrip(n);
  }

  /** Left padding with `'0'` up to `width` characters, as `%0<width>d` does. */
  function ZeroPad(s: string, width: nat): (r: string)
    ensures |r| == if |s| >= width then |s| else width
    ensures r[|r| - |s|..] == s
    ensures forall i :: 0 <= i < |r| - |s| ==> r[i] == '0'
    decreases width - |s|
  {
    if |s| >= width then s
    else
      var r := ZeroPad("0" + s, width);
      assert r[|r| - |s|..] == s by {
        assert r[|r| - |s| - 1..] == "0" + s;
        assert r[|r| - |s|..] == r[|r| - |s| - 1..][1..];
      }
      assert forall i :: 0 <= i < |r| - |s| ==> r[i] == '0' by {
        forall i | 0 <= i < |r| - |s| ensures r[i] == '0' {
          if i == |r| - |s| - 1 {
            assert r[i] == r[|r| - |s| - 1..][0];
          }
        }
      }
      r
  }

  /** A leading zero does not change the value of a digit string. */
  lemma {:induction false} LeadingZeroValue(s: string)
    requires AllDigits(s)
    ensures AllDigits("0" + s) && DigitsValue("0" + s) == DigitsValue(s)
  {
    var t := "0" + s;
    assert AllDigits(t) by {
      forall i | 0 <= i < |t| ensures IsDigit(t[i]) {
        if i > 0 {
          assert t[i] == s[i - 1];
        }
      }
    }
    if s != [] {
      assert t[..|t| - 1] == "0" + s[..|s| - 1];
      assert t[|t| - 1] == s[|s| - 1];
      LeadingZeroValue(s[..|s| - 1]);
    } else {
      assert t[..|t| - 1] == [];
    }
  }

  /** Padding keeps the digits and their value. */
  lemma {:induction false} ZeroPadValue(s: string, width: nat)
    requires AllDigits(s)
    ensures AllDigits(ZeroPad(s, width))
    ensures DigitsValue(ZeroPad(s, width)) == DigitsValue(s)
    decreases width - |s|
  {
    if |s| < width {
      LeadingZeroValue(s);
      ZeroPadValue("0" + s, width);
    }
  }

  /** `'%d' % i` and `str(i)` for any integer. */
  function IntToString(i: int): (s: string)
    ensures 1 <= |s| && NoComma(s)
  {
    if i < 0 then "-" + NatToString(-i) else NatToString(i)
  }

  /** `int(s)` restricted to the forms `IntToString` produces. */
  function ParseInt(s: string): Option<int> {
    if 2 <= |s| && s[0] == '-' && AllDigits(s[1..]) then Some(0 - DigitsValue(s[1..]) as int)
    else if 1 <= |s| && AllDigits(s) then Some(DigitsValue(s))
    else None
  }

  lemma NegativeRoundTrip(n: nat)
    requires n > 0
    ensures ParseInt("-" + NatToString(n)) == Some(-(n as int))
  {
    var digits := NatToString(n);
    var s := "-" + digits;
    assert s[1..] == digits;
    DigitsRoundTrip(n);
  }

  lemma NonNegativeRoundTrip(n: nat)
    ensures ParseInt(NatToString(n)) == Some(n)
  {
    var s := NatToString(n);
    assert s[0] != '-' by {
      assert IsDigit(s[0]);
    }
    DigitsRoundTrip(n);
  }

  /** `int(str(i)) == i`. */
  lemma IntRoundTrip(i: int)
    ensures ParseInt(IntToString(i)) == Some(i)
  {
    if i < 0 {
      NegativeRoundTrip(-i);
    } else {
      NonNegativeRoundTrip(i);
    }
  }

  /** `','.join(parts)` */
  function JoinComma(parts: seq<string>): string {
    if |parts| == 0 then ""
    else if |parts| == 1 then parts[0]
    else parts[0] + "," + JoinComma(parts[1..])
  }

  /** `s.split(',')`: the pieces between commas, always at least one. */
  function SplitComma(s: string): (r: seq<string>)
    ensures |r| >= 1
  {
    if s == [] then [""]
    else
      var rest := SplitComma(s[1..]);
      if s[0] == ',' then [""] + rest else [[s[0]] + rest[0]] + rest[1..]
  }

  lemma {:induction false} SplitPiece(p: string)
    requires NoComma(p)
    ensures SplitComma(p) == [p]
  {
    if p != [] {
      SplitPiece(p[1..]);
      assert [p[0]] + p[1..] == p;
    }
  }

  lemma {:induction false} SplitAfterPiece(p: string, t: string)
    requires NoComma(p)
    ensures SplitComma(p + "," + t) == [p] + SplitComma(t)
  {
    if p == [] {
      assert p + "," + t == [','] + t;
      assert (p + "," + t)[1..] == t;
    } else {
      var s := p + "," + t;
      assert s[1..] == p[1..] + "," + t;
      SplitAfterPiece(p[1..], t);
      assert [p[0]] + p[1..] == p;
    }
  }

  /** Splitting undoes joining when no piece holds a comma. */
  lemma {:induction false} SplitJoin(parts: seq<string>)
    requires |parts| >= 1
    requires forall i :: 0 <= i < |parts| ==> NoComma(parts[i])
    ensures SplitComma(JoinComma(parts)) == parts
  {
    if |parts| == 1 {
      SplitPiece(parts[0]);
    } else {
      SplitAfterPiece(parts[0], JoinComma(parts[1..]));
      SplitJoin(parts[1..]);
    }
  }

  /** `map(str, xs)` */
  function IntStrings(xs: seq<int>): (r: seq<string>)
    ensures |r| == |xs|
    ensures forall i :: 0 <= i < |xs| ==> r[i] == IntToString(xs[i])
  {
    if xs == [] then [] else [IntToString(xs[0])] + IntStrings(xs[1..])
  }

  /** `int` applied to every piece; `None` when one of them is not an integer. */
  function ParseInts(ps: seq<string>): (r: Option<seq<int>>)
    ensures r.Some? ==> |r.value| == |ps|
  {
    if ps == [] then Some([])
    else match (ParseInt(ps[0]), ParseInts(ps[1..]))
      case (Some(x), Some(xs)) => Some([x] + xs)
      case _ => None
  }

  lemma {:induction false} ParseIntStrings(xs: seq<int>)
    ensures ParseInts(IntStrings(xs)) == Some(xs)
  {
    if xs != [] {
      IntRoundTrip(xs[0]);
      assert IntStrings(xs)[1..] == IntStrings(xs[1..]);
      ParseIntStrings(xs[1..]);
      assert [xs[0]] + xs[1..] == xs;
    }
  }
}

=== FILE: device.dfy ===
/** The in-memory device document (`DmfDevice`) and its electrodes (`Electrode`),
    with the process-wide electrode counter made an explicit value. */
module DeviceModel {
  import opened Wrappers
  import opened Versions
  import Decimal

  /** A Python attribute an object may lack (`hasattr` is false for `Missing`). */
  datatype Attr<+T> = Missing | Present(value: T)

  type Point = (real, real)

  /** A closed outline: its vertices in order. */
  datatype Loop = Loop(verts: seq<Point>)

  datatype Rgb = Rgb(r: int, g: int, b: int)

  /** `ColoredPath`: the traced loops of a shape, the first being its outline. */
  datatype ColoredPath = ColoredPath(loops: seq<Loop>, color: Rgb)

  /** A field of a legacy drawing command: text as parsed from SVG, or a number. */
  datatype Value = Text(text: string) | Number(number: real)

  /** A legacy drawing command: a dict from field name (`command`, `x`, `y`) to value. */
  datatype Command = Command(fields: map<string, Value>)

  /** An electrode's own extents, `x_min`, `x_max`, `y_min`, `y_max`. */
  datatype Box = Box(xMin: real, xMax: real, yMin: real, yMax: real)

  /** What an electrode's `path` holds: the command list (with the electrode's
      extents) written before schema 0.3, or a traced `ColoredPath` after it. */
  datatype Geometry =
    | Legacy(commands: seq<Command>, box: Box)
    | Traced(colored: ColoredPath)

  /** `Electrode`; `state` is the attribute retired by schema 0.2. */
  datatype Electrode = Electrode(id: nat, path: Geometry, channels: seq<int>, state: Attr<int>)

  predicate IdsDistinct(es: seq<Electrode>) {
    forall i, j :: 0 <= i < j < |es| ==> es[i].id != es[j].id
  }

  /** The `electrodes` dict, keyed by electrode id, as a sequence in iteration order. */
  type ElectrodeTable = es: seq<Electrode> | IdsDistinct(es)

  function Ids(es: seq<Electrode>): set<nat> {
    set e | e in es :: e.id
  }

  /** `str(id)`: the name under which the upgrade traces an electrode. */
  function Name(e: Electrode): string {
    Decimal.NatToString(e.id)
  }

  predicate NamesDistinct(ps: seq<(string, ColoredPath)>) {
    forall i, j :: 0 <= i < j < |ps| ==> ps[i].0 != ps[j].0
  }

  /** A dict from path name to path, in iteration order. */
  type NamedPaths = ps: seq<(string, ColoredPath)> | NamesDistinct(ps)

  /** `PathGroup`: named paths inside a boundary outline. */
  datatype PathGroup = PathGroup(paths: NamedPaths, boundary: Loop)

  /** `np.Inf` or a finite coordinate. */
  datatype Bound = Infinity | Finite(value: real)

  /** `DmfDevice`. */
  datatype Device = Device(
    name: Option<string>,
    scale: Attr<Option<real>>,
    version: Attr<Version>,
    xMin: Bound,
    xMax: real,
    yMin: Bound,
    yMax: real,
    electrodes: ElectrodeTable,
    electrodeNameMap: map<nat, string>,
    nameElectrodeMap: map<string, nat>,
    pathGroup: Option<PathGroup>)

  /** The exceptions loading can raise. */
  datatype Error =
    | TypeError            // no decoder recognised the bytes
    | FutureVersionError   // the document is newer than `Current`
    | EmptyElectrodeSet    // `min` of no electrode extents (ValueError)
    | BadCoordinate        // `float` of a coordinate that is not a number (ValueError)
    | NotLegacyGeometry    // an electrode before 0.3 without command list or extents (AttributeError)
    | NotTracedGeometry    // flattening an electrode without traced path (AttributeError)
    | NoLoops              // flattening a traced path with no loop (IndexError)
    | NoAddPathGroup       // `self.add_path_group`, which the class does not define (AttributeError)

  /** A device together with the next value of the electrode counter. */
  datatype Upgraded = Upgraded(device: Device, nextId: nat)

  /** The two name maps are inverse to each other and name exactly the electrodes. */
  predicate MapsConsistent(d: Device) {
    && (forall n :: n in d.nameElectrodeMap ==>
          d.nameElectrodeMap[n] in d.electrodeNameMap && d.electrodeNameMap[d.nameElectrodeMap[n]] == n)
    && (forall id :: id in d.electrodeNameMap ==>
          d.electrodeNameMap[id] in d.nameElectrodeMap && d.nameElectrodeMap[d.electrodeNameMap[id]] == id)
    && d.electrodeNameMap.Keys == Ids(d.electrodes)
  }

  /** `DmfDevice.__init__`: an empty device at the current schema. */
  function NewDevice(): (d: Device)
    ensures d.version == Present(Current) && d.scale == Present(None)
    ensures d.electrodes == [] && MapsConsistent(d)
    ensures d.name == None && d.pathGroup == None
    ensures d.xMin == Infinity && d.xMax == 0.0 && d.yMin == Infinity && d.yMax == 0.0
  {
    Device(None, Present(None), Present(Current), Infinity, 0.0, Infinity, 0.0, [], map[], map[], None)
  }

  /** `Electrode.__init__`: takes the counter's value as id and advances it. */
  function NewElectrode(path: ColoredPath, nextId: nat): (r: (Electrode, nat))
    ensures r.0.id == nextId && r.1 == nextId + 1
    ensures r.0.path == Traced(path) && r.0.channels == [] && r.0.state == Missing
  {
    (Electrode(nextId, Traced(path), [], Missing), nextId + 1)
  }
}

=== FILE: frame.dfy ===
/** `DmfDevice.to_frame` (lines 201-224): one table row per vertex of every
    electrode's outline, labelled with the electrode's SVG attributes. */
module Flatten {
  import opened Wrappers
  import opened DeviceModel
  import Decimal
  import Rebase

  /** `[shape_id, style, channels, j, x, y]`. */
  datatype Row = Row(id: string, style: string, channels: string, vertexI: nat, x: real, y: real)

  /** The frame's column names, present even when there are no rows. */
  const Columns: seq<string> := ["id", "style", "data-channels", "vertex_i", "x", "y"]

  datatype Frame = Frame(columns: seq<string>, rows: seq<Row>)

  const ShapePrefix: string := "electrode"
  const StylePrefix: string := "fill: rgb("
  const StyleSuffix: string := ")"

  /** `'electrode%03d' % i`. */
  function ShapeId(i: nat): (s: string)
    ensures |s| >= |ShapePrefix| + 3 && s[..|ShapePrefix|] == ShapePrefix
  {
    ShapePrefix + Decimal.ZeroPad(Decimal.NatToString(i), 3)
  }

  /** Reads an electrode id back from a shape id. */
  function ParseShapeId(s: string): Option<nat> {
    if |s| > |ShapePrefix| && s[..|ShapePrefix|] == ShapePrefix && Decimal.AllDigits(s[|ShapePrefix|..])
    then Some(Decimal.DigitsValue(s[|ShapePrefix|..]))
    else None
  }

  /** The shape id names its electrode: padding to three digits loses nothing. */
  lemma ShapeIdRoundTrip(i: nat)
    ensures ParseShapeId(ShapeId(i)) == Some(i)
  {
    var digits := Decimal.NatToString(i);
    Decimal.ZeroPadValue(digits, 3);
    Decimal.DigitsRoundTrip(i);
    assert ShapeId(i)[|ShapePrefix|..] == Decimal.ZeroPad(digits, 3);
  }

  /** Distinct electrodes get distinct shape ids, also beyond three digits. */
  lemma ShapeIdInjective(i: nat, j: nat)
    ensures ShapeId(i) == ShapeId(j) ==> i == j
  {
    ShapeIdRoundTrip(i);
    ShapeIdRoundTrip(j);
  }

  /** `'fill: rgb(%d,%d,%d)' % tuple(color)`. */
  function Style(c: Rgb): (s: string)
    ensures |s| > |StylePrefix| + |StyleSuffix|
  {
    StylePrefix + Decimal.JoinComma([Decimal.IntToString(c.r), Decimal.IntToString(c.g), Decimal.IntToString(c.b)])
      + StyleSuffix
  }

  /** Reads a colour back from a style. */
  function ParseStyle(s: string): Option<Rgb> {
    if |s| < |StylePrefix| + |StyleSuffix| || s[..|StylePrefix|] != StylePrefix || s[|s| - 1..] != StyleSuffix
    then None
    else
      var parts := Decimal.SplitComma(s[|StylePrefix|..|s| - 1]);
      if |parts| != 3 then None
      else match Decimal.ParseInts(parts)
        case Some(xs) => Some(Rgb(xs[0], xs[1], xs[2]))
        case None => None
  }

  lemma StyleRoundTrip(c: Rgb)
    ensures ParseStyle(Style(c)) == Some(c)
  {
    var parts := [Decimal.IntToString(c.r), Decimal.IntToString(c.g), Decimal.IntToString(c.b)];
    var s := Style(c);
    assert s[..|StylePrefix|] == StylePrefix;
    assert s[|s| - 1..] == StyleSuffix;
    assert s[|StylePrefix|..|s| - 1] == Decimal.JoinComma(parts);
    Decimal.SplitJoin(parts);
    assert parts == Decimal.IntStrings([c.r, c.g, c.b]);
    Decimal.ParseIntStrings([c.r, c.g, c.b]);
  }

  /** `','.join(map(str, channels))`. */
  function ChannelsText(channels: seq<int>): (s: string)
    ensures s == [] <==> channels == []
  {
    var parts := Decimal.IntStrings(channels);
    assert channels != [] ==> |Decimal.JoinComma(parts)| >= |parts[0]| by {
      if channels != [] {
        JoinCommaStartsWithFirst(parts);
      }
    }
    Decimal.JoinComma(parts)
  }

  lemma {:induction false} JoinCommaStartsWithFirst(parts: seq<string>)
    requires |parts| >= 1
    ensures |Decimal.JoinComma(parts)| >= |parts[0]|
  {
  }

  /** Reads a channel list back; the empty text is the empty list. */
  function ParseChannels(s: string): Option<seq<int>> {
    if s == [] then Some([]) else Decimal.ParseInts(Decimal.SplitComma(s))
  }

  lemma ChannelsRoundTrip(channels: seq<int>)
    ensures ParseChannels(ChannelsText(channels)) == Some(channels)
  {
    if channels != [] {
      var parts := Decimal.IntStrings(channels);
      Decimal.SplitJoin(parts);
      Decimal.ParseIntStrings(channels);
    }
  }

  /** An electrode that can be flattened: a traced path with an outline. */
  predicate Flattenable(e: Electrode) {
    e.path.Traced? && |e.path.colored.loops| > 0
  }

  function Outline(e: Electrode): seq<Point>
    requires Flattenable(e)
  {
    e.path.colored.loops[0].verts
  }

  /** The row for vertex `j` of the electrode's outline. */
  function VertexRow(e: Electrode, j: nat): Row
    requires Flattenable(e) && j < |Outline(e)|
  {
    Row(ShapeId(e.id), Style(e.path.colored.color), ChannelsText(e.channels), j, Outline(e)[j].0, Outline(e)[j].1)
  }

  /** The rows of one electrode; a legacy path has no `color` (AttributeError),
      a traced path without loops has no `loops[0]` (IndexError). */
  function ElectrodeRows(e: Electrode): (r: Result<seq<Row>, Error>)
    ensures r.Failure? <==> !Flattenable(e)
    ensures r.Failure? ==> r.error == (if e.path.Legacy? then NotTracedGeometry else NoLoops)
    ensures r.Success? ==> |r.value| == |Outline(e)| && forall j :: 0 <= j < |r.value| ==> r.value[j] == VertexRow(e, j)
  {
    match e.path
    case Legacy(_, _) => Failure(NotTracedGeometry)
    case Traced(p) =>
      if |p.loops| == 0 then Failure(NoLoops)
      else Success(seq(|p.loops[0].verts|, j requires 0 <= j < |p.loops[0].verts| => VertexRow(e, j)))
  }

  /** The rows of all electrodes in iteration order. */
  function Rows(es: seq<Electrode>): (r: Result<seq<Row>, Error>)
    ensures r.Failure? <==> exists i :: 0 <= i < |es| && !Flattenable(es[i])
  {
    if es == [] then Success([])
    else
      assert forall i :: 1 <= i < |es| ==> es[i] == es[1..][i - 1];
      match ElectrodeRows(es[0])
      case Failure(err) => Failure(err)
      case Success(head) =>
        match Rows(es[1..])
        case Failure(err) => Failure(err)
        case Success(tail) => Success(head + tail)
  }

  /** A successful flattening is the first electrode's rows followed by the rest's. */
  lemma RowsCons(es: seq<Electrode>)
    requires es != [] && Rows(es).Success?
    ensures ElectrodeRows(es[0]).Success? && Rows(es[1..]).Success?
    ensures Rows(es).value == ElectrodeRows(es[0]).value + Rows(es[1..]).value
  {
  }

  /** The first electrode that cannot be flattened decides the exception:
      AttributeError for a legacy path, IndexError for one without loops. */
  lemma {:induction false} RowsFailAtFirst(es: seq<Electrode>, i: nat)
    requires i < |es| && !Flattenable(es[i])
    requires forall k :: 0 <= k < i ==> Flattenable(es[k])
    ensures Rows(es) == Failure(if es[i].path.Legacy? then NotTracedGeometry else NoLoops)
  {
    if i > 0 {
      assert Flattenable(es[0]);
      assert forall k :: 0 <= k < i - 1 ==> es[1..][k] == es[k + 1];
      RowsFailAtFirst(es[1..], i - 1);
    }
  }

  /** `to_frame`: the six columns always, one row per outline vertex. */
  function ToFrame(d: Device): (r: Result<Frame, Error>)
    ensures r.Success? ==> r.value.columns == Columns
    ensures r.Success? <==> forall i :: 0 <= i < |d.electrodes| ==> Flattenable(d.electrodes[i])
    ensures d.electrodes == [] ==> r == Success(Frame(Columns, []))
  {
    match Rows(d.electrodes)
    case Failure(err) => Failure(err)
    case Success(rows) => Success(Frame(Columns, rows))
  }

  /** A device built by `__init__` flattens to the empty table with the six columns. */
  lemma NewDeviceFlattensEmpty()
    ensures ToFrame(NewDevice()) == Success(Frame(Columns, []))
  {
  }

  /** Every row comes from a vertex of some electrode's outline. */
  lemma {:induction false} RowsSound(es: seq<Electrode>, row: Row)
    requires Rows(es).Success?
    ensures row in Rows(es).value ==>
      exists i, j :: 0 <= i < |es| && Flattenable(es[i]) && 0 <= j < |Outline(es[i])| && row == VertexRow(es[i], j)
  {
    if es == [] || row !in Rows(es).value {
      return;
    }
    RowsCons(es);
    var head := ElectrodeRows(es[0]).value;
    var tail := Rows(es[1..]).value;
    if row in head {
      var j :| 0 <= j < |head| && head[j] == row;
      assert Flattenable(es[0]) && j < |Outline(es[0])| && row == VertexRow(es[0], j);
    } else {
      assert row in tail;
      RowsSound(es[1..], row);
      var i, j :| 0 <= i < |es[1..]| && Flattenable(es[1..][i]) && 0 <= j < |Outline(es[1..][i])| && row == VertexRow(es[1..][i], j);
      assert es[1..][i] == es[i + 1];
      assert Flattenable(es[i + 1]) && j < |Outline(es[i + 1])| && row == VertexRow(es[i + 1], j);
    }
  }

  lemma InHead(head: seq<Row>, tail: seq<Row>, j: nat)
    requires j < |head|
    ensures head[j] in head + tail
  {
    assert (head + tail)[j] == head[j];
  }

  lemma InTail(head: seq<Row>, tail: seq<Row>, x: Row)
    requires x in tail
    ensures x in head + tail
  {
    var m :| 0 <= m < |tail| && tail[m] == x;
    assert (head + tail)[|head| + m] == x;
  }

  /** Every vertex of every electrode's outline has its row. */
  lemma {:induction false} RowsComplete(es: seq<Electrode>, i: nat, j: nat)
    requires Rows(es).Success? && i < |es| && Flattenable(es[i]) && j < |Outline(es[i])|
    ensures VertexRow(es[i], j) in Rows(es).value
  {
    RowsCons(es);
    var head := ElectrodeRows(es[0]).value;
    var tail := Rows(es[1..]).value;
    if i == 0 {
      assert head[j] == VertexRow(es[0], j);
      InHead(head, tail, j);
    } else {
      assert es[1..][i - 1] == es[i];
      RowsComplete(es[1..], i - 1, j);
      InTail(head, tail, VertexRow(es[i], j));
    }
  }

  /** A row reads back as the shape id, colour, channel list and an
      outline vertex of electrode `e`. */
  predicate RowDescribes(row: Row, e: Electrode) {
    && Flattenable(e)
    && ParseShapeId(row.id) == Some(e.id)
    && ParseStyle(row.style) == Some(e.path.colored.color)
    && ParseChannels(row.channels) == Some(e.channels)
    && row.vertexI < |Outline(e)| && Outline(e)[row.vertexI] == (row.x, row.y)
  }

  lemma VertexRowDescribes(e: Electrode, j: nat)
    requires Flattenable(e) && j < |Outline(e)|
    ensures RowDescribes(VertexRow(e, j), e)
  {
    ShapeIdRoundTrip(e.id);
    StyleRoundTrip(e.path.colored.color);
    ChannelsRoundTrip(e.channels);
  }

  /** Every row of the frame describes one electrode of the device. */
  lemma FrameRowDecodes(d: Device, row: Row)
    requires ToFrame(d).Success?
    ensures row in ToFrame(d).value.rows ==> exists e :: e in d.electrodes && RowDescribes(row, e)
  {
    if row in ToFrame(d).value.rows {
      RowsSound(d.electrodes, row);
      var i, j :| 0 <= i < |d.electrodes| && Flattenable(d.electrodes[i]) && 0 <= j < |Outline(d.electrodes[i])|
        && row == VertexRow(d.electrodes[i], j);
      VertexRowDescribes(d.electrodes[i], j);
      assert d.electrodes[i] in d.electrodes;
    }
  }

  /** Every outline vertex of every electrode appears in the frame. */
  lemma FrameCoversEveryVertex(d: Device, i: nat, j: nat)
    requires ToFrame(d).Success? && i < |d.electrodes|
    ensures Flattenable(d.electrodes[i])
    ensures j < |Outline(d.electrodes[i])| ==> VertexRow(d.electrodes[i], j) in ToFrame(d).value.rows
  {
    if j < |Outline(d.electrodes[i])| {
      RowsComplete(d.electrodes, i, j);
    }
  }

  function Xs(rows: seq<Row>): (xs: seq<real>)
    ensures |xs| == |rows| && forall k :: 0 <= k < |rows| ==> xs[k] == rows[k].x
  {
    seq(|rows|, k requires 0 <= k < |rows| => rows[k].x)
  }

  function Ys(rows: seq<Row>): (ys: seq<real>)
    ensures |ys| == |rows| && forall k :: 0 <= k < |rows| ==> ys[k] == rows[k].y
  {
    seq(|rows|, k requires 0 <= k < |rows| => rows[k].y)
  }

  /** A millimetre coordinate converted back and moved by `low`. */
  function Unshift(s: real, low: real, ppmm: real): real {
    s * ppmm + low
  }

  /** One coordinate moved by `low` and converted to millimetres. */
  function Shift(v: real, low: real, ppmm: real): (s: real)
    requires ppmm > 0.0
    ensures Unshift(s, low, ppmm) == v
    ensures low <= v ==> 0.0 <= s
    ensures s == 0.0 <==> v == low
  {
    (v - low) / ppmm
  }

  /** One row with its vertex moved by `(lowX, lowY)` and converted to millimetres. */
  function ShiftRow(row: Row, lowX: real, lowY: real, ppmm: real): (o: Row)
    requires ppmm > 0.0
    ensures o.(x := row.x, y := row.y) == row
    ensures Unshift(o.x, lowX, ppmm) == row.x && Unshift(o.y, lowY, ppmm) == row.y
    ensures lowX <= row.x ==> 0.0 <= o.x
    ensures lowY <= row.y ==> 0.0 <= o.y
    ensures row.x == lowX ==> o.x == 0.0
    ensures row.y == lowY ==> o.y == 0.0
  {
    row.(x := Shift(row.x, lowX, ppmm), y := Shift(row.y, lowY, ppmm))
  }

  /** Every row shifted by `(lowX, lowY)`, where no row lies below the offset. */
  function ShiftRows(rows: seq<Row>, lowX: real, lowY: real, ppmm: real): (r: seq<Row>)
    requires ppmm > 0.0
    requires forall k :: 0 <= k < |rows| ==> lowX <= rows[k].x && lowY <= rows[k].y
    ensures |r| == |rows|
    ensures forall k :: 0 <= k < |r| ==> r[k].(x := rows[k].x, y := rows[k].y) == rows[k]
    ensures forall k :: 0 <= k < |r| ==> 0.0 <= r[k].x && 0.0 <= r[k].y
    ensures forall k :: 0 <= k < |r| ==> (rows[k].x == lowX ==> r[k].x == 0.0) && (rows[k].y == lowY ==> r[k].y == 0.0)
    ensures forall k :: 0 <= k < |r| ==> rows[k].x == Unshift(r[k].x, lowX, ppmm) && rows[k].y == Unshift(r[k].y, lowY, ppmm)
  {
    var r := seq(|rows|, k requires 0 <= k < |rows| => ShiftRow(rows[k], lowX, lowY, ppmm));
    assert forall k :: 0 <= k < |rows| ==> r[k] == ShiftRow(rows[k], lowX, lowY, ppmm);
    r
  }

  /** The coordinate step of `to_svg` (lines 248-251): every vertex is shifted
      by the table-wide minimum x and y, then divided by the pixels-per-millimetre
      constant `ppmm` (`INKSCAPE_PPmm`, whose value is not part of this model).
      Afterwards the smallest x and the smallest y are zero, and the one
      table-wide offset (not a per-electrode one) recovers every original
      coordinate. */
  function Normalize(rows: seq<Row>, ppmm: real): (r: seq<Row>)
    requires ppmm > 0.0
    ensures |r| == |rows|
    ensures forall k :: 0 <= k < |r| ==> r[k].(x := rows[k].x, y := rows[k].y) == rows[k]
    ensures forall k :: 0 <= k < |r| ==> 0.0 <= r[k].x && 0.0 <= r[k].y
    ensures rows != [] ==> exists k :: 0 <= k < |r| && r[k].x == 0.0
    ensures rows != [] ==> exists k :: 0 <= k < |r| && r[k].y == 0.0
    ensures rows != [] ==> forall k :: 0 <= k < |r| ==>
      rows[k].x == Unshift(r[k].x, Rebase.Min(Xs(rows)), ppmm) && rows[k].y == Unshift(r[k].y, Rebase.Min(Ys(rows)), ppmm)
  {
    if rows == [] then []
    else
      var xs := Xs(rows);
      var ys := Ys(rows);
      var minX := Rebase.Min(xs);
      var minY := Rebase.Min(ys);
      var r := ShiftRows(rows, minX, minY, ppmm);
      assert exists k :: 0 <= k < |r| && r[k].x == 0.0 by {
        var kx :| 0 <= kx < |xs| && xs[kx] == minX;
        assert r[kx].x == 0.0;
      }
      assert exists k :: 0 <= k < |r| && r[k].y == 0.0 by {
        var ky :| 0 <= ky < |ys| && ys[ky] == minY;
        assert r[ky].y == 0.0;
      }
      r
  }
}

=== FILE: loader.dfy ===
/** `DmfDevice.load` (lines 86-124): try the pickle decoder on the file's
    bytes, then on the bytes with the old module path renamed, then the YAML
    decoder; default a missing version to `'0'` and upgrade. */
module Loader {
  import opened Wrappers
  import opened Versions
  import opened DeviceModel
  import Rebase
  import Migration

  /** A file's contents (Python 2 `str`). */
  type Bytes = seq<char>

  /** The two deserialisers, whose code is not part of this model. `None`
      stands both for "raised" and for "decoded to `None`": `load` treats
      them alike. */
  datatype Codecs = Codecs(pickle: Bytes -> Option<Device>, yaml: Bytes -> Option<Device>)

  /** The module path older files were pickled under, and its replacement. */
  const OldModule: string := "microdrop.dmf_device"
  const NewModule: string := "microdrop_device_converter.dmf_device"

  /** `pat` occurs in `s` at position `i`. */
  predicate OccursAt(pat: string, s: string, i: nat) {
    i + |pat| <= |s| && s[i..i + |pat|] == pat
  }

  predicate Occurs(pat: string, s: string) {
    exists i: nat | i + |pat| <= |s| :: OccursAt(pat, s, i)
  }

  /** Away from the front, occurrences in `s` are those in `s[1..]`. */
  lemma OccursTail(pat: string, s: string)
    requires 0 < |pat| <= |s| && s[..|pat|] != pat
    ensures Occurs(pat, s) <==> Occurs(pat, s[1..])
  {
    if Occurs(pat, s) {
      var i: nat :| i + |pat| <= |s| && OccursAt(pat, s, i);
      assert i != 0;
      assert s[1..][i - 1..i - 1 + |pat|] == s[i..i + |pat|];
      assert OccursAt(pat, s[1..], i - 1);
    }
    if Occurs(pat, s[1..]) {
      var i: nat :| i + |pat| <= |s[1..]| && OccursAt(pat, s[1..], i);
      assert s[1..][i..i + |pat|] == s[i + 1..i + 1 + |pat|];
      assert OccursAt(pat, s, i + 1);
    }
  }

  /** `s.replace(pat, rep)`: every non-overlapping occurrence, scanning from
      the left, replaced. */
  function ReplaceAll(s: string, pat: string, rep: string): (r: string)
    requires |pat| > 0
    ensures !Occurs(pat, s) ==> r == s
    ensures |rep| > |pat| && Occurs(pat, s) ==> |r| > |s|
    ensures |rep| >= |pat| ==> |r| >= |s|
    decreases |s|
  {
    if |s| < |pat| then s
    else if s[..|pat|] == pat then
      assert OccursAt(pat, s, 0);
      rep + ReplaceAll(s[|pat|..], pat, rep)
    else
      var rest := ReplaceAll(s[1..], pat, rep);
      OccursTail(pat, s);
      [s[0]] + rest
  }

  /** The renaming changes the bytes exactly when the old module path occurs. */
  lemma RenameChangesIffOccurs(b: Bytes)
    ensures ReplaceAll(b, OldModule, NewModule) == b <==> !Occurs(OldModule, b)
  {
  }

  /** The first attempt that produced an object. */
  function FirstSome(attempts: seq<Option<Device>>): (r: Option<Device>)
    ensures r.Some? <==> exists i :: 0 <= i < |attempts| && attempts[i].Some?
    ensures r.Some? ==>
      exists i :: 0 <= i < |attempts| && attempts[i] == r && (forall j :: 0 <= j < i ==> attempts[j].None?)
  {
    if attempts == [] then None
    else if attempts[0].Some? then attempts[0]
    else
      var r := FirstSome(attempts[1..]);
      assert forall i :: 1 <= i < |attempts| ==> attempts[i] == attempts[1..][i - 1];
      assert r.Some? ==>
        exists i :: 0 <= i < |attempts| && attempts[i] == r && (forall j :: 0 <= j < i ==> attempts[j].None?) by {
        if r.Some? {
          var i :| 0 <= i < |attempts[1..]| && attempts[1..][i] == r &&
            forall j :: 0 <= j < i ==> attempts[1..][j].None?;
          assert attempts[i + 1] == r;
        }
      }
      r
  }

  /** The three decoding attempts of `load`, in order, each run only when
      the ones before it gave nothing. */
  function Decode(b: Bytes, codecs: Codecs): (r: Option<Device>)
    ensures r.None? <==>
      codecs.pickle(b).None? && codecs.pickle(ReplaceAll(b, OldModule, NewModule)).None? && codecs.yaml(b).None?
  {
    match codecs.pickle(b)
    case Some(d) => Some(d)
    case None =>
      match codecs.pickle(ReplaceAll(b, OldModule, NewModule))
      case Some(d) => Some(d)
      case None => codecs.yaml(b)
  }

  /** The decoding is "first attempt that succeeds". */
  lemma {:induction false} DecodeIsFirstSome(b: Bytes, codecs: Codecs)
    ensures Decode(b, codecs) ==
      FirstSome([codecs.pickle(b), codecs.pickle(ReplaceAll(b, OldModule, NewModule)), codecs.yaml(b)])
  {
    var attempts := [codecs.pickle(b), codecs.pickle(ReplaceAll(b, OldModule, NewModule)), codecs.yaml(b)];
    assert attempts[1..] == [attempts[1], attempts[2]];
    assert attempts[1..][1..] == [attempts[2]];
    assert attempts[1..][1..][1..] == [];
  }

  /** Bytes that never mention the old module path: the renamed retry
      decodes the same bytes again, so only pickle and YAML matter. */
  lemma RenameRetryRedundant(b: Bytes, codecs: Codecs)
    requires !Occurs(OldModule, b)
    ensures Decode(b, codecs) == if codecs.pickle(b).Some? then codecs.pickle(b) else codecs.yaml(b)
  {
  }

  /** `if not hasattr(out, 'version'): out.version = '0'`. */
  function WithDefaultVersion(d: Device): (r: Device)
    ensures r.version.Present?
    ensures d.version.Present? ==> r == d
    ensures d.version.Missing? ==> r.version.value == Oldest && r.(version := d.version) == d
  {
    if d.version.Missing? then d.(version := Present(Oldest)) else d
  }

  /** `DmfDevice.load`: `TypeError` when nothing decodes, else the decoded
      device with its version defaulted, upgraded. */
  function Load(b: Bytes, codecs: Codecs, nextId: nat, tracer: Rebase.Tracer): (r: Result<Upgraded, Error>)
    ensures r == Failure(TypeError) <==>
      codecs.pickle(b).None? && codecs.pickle(ReplaceAll(b, OldModule, NewModule)).None? && codecs.yaml(b).None?
    ensures r.Success? ==> r.value.device.version == Present(Current) && r.value.nextId >= nextId
    ensures r.Success? && Decode(b, codecs).value.version.Missing? ==> r.value.device.scale == Present(None)
    ensures r.Success? ==> r.value.device.name == Decode(b, codecs).value.name
  {
    match Decode(b, codecs)
    case None => Failure(TypeError)
    case Some(d) => Migration.Upgrade(WithDefaultVersion(d), nextId, tracer)
  }

  /** A document written at the current schema loads back as it was decoded,
      and the counter does not move. */
  lemma LoadCurrentUnchanged(b: Bytes, codecs: Codecs, nextId: nat, tracer: Rebase.Tracer)
    requires Decode(b, codecs).Some? && Decode(b, codecs).value.version == Present(Current)
    ensures Load(b, codecs, nextId, tracer) == Success(Upgraded(Decode(b, codecs).value, nextId))
  {
  }

  /** A document from a newer schema is refused with FutureVersionError. */
  lemma LoadFutureFails(b: Bytes, codecs: Codecs, nextId: nat, tracer: Rebase.Tracer)
    requires Decode(b, codecs).Some?
    requires var v := Decode(b, codecs).value.version; v.Present? && Less(Current, v.value)
    ensures Load(b, codecs, nextId, tracer) == Failure(FutureVersionError)
  {
  }

  /** A document without a version is upgraded as one at `'0'`: all three
      steps run. */
  lemma LoadUnversionedTakesEveryStep(b: Bytes, codecs: Codecs, nextId: nat, tracer: Rebase.Tracer)
    requires Decode(b, codecs).Some? && Decode(b, codecs).value.version.Missing?
    ensures var d := Decode(b, codecs).value;
      Load(b, codecs, nextId, tracer) ==
        Migration.Cascade(Milestones, Oldest, Upgraded(d.(version := Present(Oldest)), nextId), tracer)
  {
    var d := Decode(b, codecs).value;
    Migration.UpgradeFollowsMilestones(d.(version := Present(Oldest)), nextId, tracer);
  }

  /** Loading two legacy documents one after the other, threading the
      counter, gives electrodes whose ids never clash. */
  lemma SequentialLoadsFreshIds(b1: Bytes, b2: Bytes, codecs: Codecs, nextId: nat, tracer: Rebase.Tracer)
    requires Decode(b1, codecs).Some? && WithDefaultVersion(Decode(b1, codecs).value).version.value != Current
    requires Decode(b2, codecs).Some? && WithDefaultVersion(Decode(b2, codecs).value).version.value != Current
    ensures var r1 := Load(b1, codecs, nextId, tracer);
      r1.Success? ==>
        var r2 := Load(b2, codecs, r1.value.nextId, tracer);
        r2.Success? ==>
          forall e1, e2 :: e1 in r1.value.device.electrodes && e2 in r2.value.device.electrodes ==> e1.id < e2.id
  {
  }
}

=== FILE: migration.dfy ===
/** `DmfDevice._upgrade`: the version state machine that brings a loaded
    document up to the current schema, one milestone at a time. */
module Migration {
  import opened Wrappers
  import opened Versions
  import opened DeviceModel
  import Rebase

  /** The step to schema 0.1: the device gains a `scale`, unset. */
  function StepTo01(d: Device): (r: Device)
    ensures r.version == Present(V01) && r.scale == Present(None)
    ensures r.(version := d.version, scale := d.scale) == d
  {
    d.(version := Present(V01), scale := Present(None))
  }

  /** Every electrode without its `state` attribute; nothing else of it changes. */
  function DropStates(es: ElectrodeTable): (r: ElectrodeTable)
    ensures |r| == |es|
    ensures forall i :: 0 <= i < |r| ==> r[i].state == Missing && r[i].(state := es[i].state) == es[i]
  {
    var r := seq(|es|, i requires 0 <= i < |es| => es[i].(state := Missing));
    assert forall i :: 0 <= i < |r| ==> r[i].id == es[i].id;
    r
  }

  /** The step to schema 0.2: electrodes lose their `state`. */
  function StepTo02(d: Device): (r: Device)
    ensures r.version == Present(V02)
    ensures r.(version := d.version, electrodes := d.electrodes) == d
    ensures |r.electrodes| == |d.electrodes|
    ensures forall i :: 0 <= i < |r.electrodes| ==>
      r.electrodes[i].state == Missing && r.electrodes[i].(state := d.electrodes[i].state) == d.electrodes[i]
  {
    d.(version := Present(V02), electrodes := DropStates(d.electrodes))
  }

  /** Tracing depends only on an electrode's path. */
  lemma TraceIgnoresState(e: Electrode, f: Electrode, tracer: Rebase.Tracer)
    requires e.path.Legacy? && f.path == e.path
    ensures Rebase.TraceElectrode(e, tracer) == Rebase.TraceElectrode(f, tracer)
  {
  }

  /** The step to 0.3 sees through the earlier steps: they change no path. */
  lemma StepsKeepPaths(d: Device, d2: Device, tracer: Rebase.Tracer)
    requires |d2.electrodes| == |d.electrodes|
    requires forall i :: 0 <= i < |d.electrodes| ==> d2.electrodes[i].path == d.electrodes[i].path
    ensures Rebase.AllLegacy(d2.electrodes) <==> Rebase.AllLegacy(d.electrodes)
    ensures Rebase.AllLegacy(d.electrodes) ==>
      ((exists i :: 0 <= i < |d2.electrodes| && Rebase.TraceElectrode(d2.electrodes[i], tracer).Failure?)
       <==> (exists i :: 0 <= i < |d.electrodes| && Rebase.TraceElectrode(d.electrodes[i], tracer).Failure?))
  {
    if Rebase.AllLegacy(d.electrodes) {
      forall i | 0 <= i < |d.electrodes|
        ensures Rebase.TraceElectrode(d2.electrodes[i], tracer) == Rebase.TraceElectrode(d.electrodes[i], tracer)
      {
        TraceIgnoresState(d.electrodes[i], d2.electrodes[i], tracer);
      }
    }
  }

  /** The steps below 0.3 that a document at version `v` takes. */
  function EarlySteps(d: Device, v: Version): (r: Device)
    ensures |r.electrodes| == |d.electrodes|
    ensures forall i :: 0 <= i < |d.electrodes| ==> r.electrodes[i].path == d.electrodes[i].path
  {
    var d1 := if Less(v, V01) then StepTo01(d) else d;
    if Less(v, V02) then StepTo02(d1) else d1
  }

  /** `_upgrade` (lines 126-199). The version is read once, and each step is
      guarded by that captured value, so a document older than 0.1 takes all
      three steps in order. */
  function Upgrade(d: Device, nextId: nat, tracer: Rebase.Tracer): (r: Result<Upgraded, Error>)
    requires d.version.Present?
    ensures var v := d.version.value;
      r.Failure? <==>
        || Less(Current, v)
        || (Less(v, Current) &&
            (|| !Rebase.AllLegacy(d.electrodes)
             || |d.electrodes| == 0
             || exists i :: 0 <= i < |d.electrodes| && Rebase.TraceElectrode(d.electrodes[i], tracer).Failure?))
    ensures r.Failure? ==> (r.error == FutureVersionError <==> Less(Current, d.version.value))
    ensures d.version.value == Current ==> r == Success(Upgraded(d, nextId))
    ensures r.Success? ==>
      var u := r.value;
      && u.device.version == Present(Current)
      && u.nextId >= nextId
      && u.device.name == d.name
      && u.device.scale == (if Less(d.version.value, V01) then Present(None) else d.scale)
      && MapsConsistent(u.device) == (MapsConsistent(d) || d.version.value != Current)
      && forall e :: e in u.device.electrodes && d.version.value != Current ==>
           nextId <= e.id < u.nextId && e.path.Traced? && e.state == Missing
  {
    var v := d.version.value;
    LessIsStrictTotalOrder(v, Current, Current);
    if Less(Current, v) then Failure(FutureVersionError)
    else if Less(v, Current) then
      var d2 := EarlySteps(d, v);
      StepsKeepPaths(d, d2, tracer);
      var r := Rebase.StepTo03(d2, nextId, tracer);
      if r.Success? then
        assert forall e :: e in r.value.device.electrodes ==>
          nextId <= e.id < r.value.nextId && e.path.Traced? && e.state == Missing;
        r
      else r
    else Success(Upgraded(d, nextId))
  }

  /** The one step that brings a document to milestone `m`. */
  function StepTo(m: Version, u: Upgraded, tracer: Rebase.Tracer): Result<Upgraded, Error> {
    if m == V01 then Success(Upgraded(StepTo01(u.device), u.nextId))
    else if m == V02 then Success(Upgraded(StepTo02(u.device), u.nextId))
    else Rebase.StepTo03(u.device, u.nextId, tracer)
  }

  /** Reference reading of the cascade: walk the milestones in order and take
      the step to each one the captured version `v` is older than, stopping
      at the first exception. */
  function Cascade(ms: seq<Version>, v: Version, u: Upgraded, tracer: Rebase.Tracer): Result<Upgraded, Error>
    decreases |ms|
  {
    if ms == [] then Success(u)
    else if !Less(v, ms[0]) then Cascade(ms[1..], v, u, tracer)
    else match StepTo(ms[0], u, tracer)
      case Failure(err) => Failure(err)
      case Success(next) => Cascade(ms[1..], v, next, tracer)
  }

  /** An older document is upgraded exactly as walking the milestones says. */
  lemma {:induction false} UpgradeFollowsMilestones(d: Device, nextId: nat, tracer: Rebase.Tracer)
    requires d.version.Present? && !Less(Current, d.version.value)
    ensures Upgrade(d, nextId, tracer) == Cascade(Milestones, d.version.value, Upgraded(d, nextId), tracer)
  {
    var v := d.version.value;
    var u := Upgraded(d, nextId);
    var d1 := if Less(v, V01) then StepTo01(d) else d;
    var d2 := if Less(v, V02) then StepTo02(d1) else d1;
    assert Milestones[1..] == [V02, V03] && Milestones[2..] == [V03] && Milestones[3..] == [];
    assert Cascade(Milestones, v, u, tracer) == Cascade([V02, V03], v, Upgraded(d1, nextId), tracer);
    assert Cascade([V02, V03], v, Upgraded(d1, nextId), tracer) == Cascade([V03], v, Upgraded(d2, nextId), tracer);
    if v == Current {
      assert d2 == d;
      assert Cascade([V03], v, Upgraded(d2, nextId), tracer) == Cascade([], v, Upgraded(d2, nextId), tracer);
    } else {
      assert Less(v, V03);
      assert Cascade([V03], v, Upgraded(d2, nextId), tracer) == Rebase.StepTo03(d2, nextId, tracer);
    }
  }

  /** Upgrading is idempotent: an upgraded device is already current. */
  lemma UpgradeIdempotent(d: Device, nextId: nat, tracer: Rebase.Tracer)
    requires d.version.Present?
    ensures var r := Upgrade(d, nextId, tracer);
      r.Success? ==> Upgrade(r.value.device, r.value.nextId, tracer) == r
  {
  }

  /** Taking the first pending step and upgrading from there is the same as
      upgrading directly. */
  lemma UpgradeStepwise(d: Device, nextId: nat, tracer: Rebase.Tracer)
    requires d.version.Present? && Less(d.version.value, V02)
    ensures var first := if Less(d.version.value, V01) then StepTo01(d) else StepTo02(d);
      Upgrade(d, nextId, tracer) == Upgrade(first, nextId, tracer)
  {
  }

  /** A device built by `__init__` is already at the current schema: upgrading
      it changes nothing and draws no id from the counter. */
  lemma NewDeviceNeedsNoUpgrade(nextId: nat, tracer: Rebase.Tracer)
    ensures Upgrade(NewDevice(), nextId, tracer) == Success(Upgraded(NewDevice(), nextId))
  {
  }
}

=== FILE: rebase.dfy ===
/** The schema 0.3 step of `DmfDevice._upgrade`: legacy command lists are traced
    into closed loops, grouped inside a rectangular boundary, rebuilt as fresh
    electrodes, and the legacy channel lists are re-attached by name. */
module Rebase {
  import opened Wrappers
  import opened Versions
  import opened DeviceModel
  import Decimal

  /** One entry handed to the tracer: `(command, x, y)`, or the closing `('Z',)`. */
  datatype PathTuple = Draw(kind: Value, x: real, y: real) | Close

  /** What `LoopTracer.to_loops` yields: loops, or one of the two exceptions
      the upgrade absorbs. */
  datatype TraceOutcome = Loops(loops: seq<Loop>) | ParseError | KeyError

  /** Collaborators whose code is not part of this model: the loop tracer,
      and Python's `float` on text. */
  datatype Tracer = Tracer(toLoops: seq<PathTuple> -> TraceOutcome, parseFloat: string -> Option<real>)

  /** The colour every traced electrode gets. */
  const DefaultColor: Rgb := Rgb(0, 0, 255)

  predicate HasDrawKeys(c: Command) {
    "command" in c.fields && "x" in c.fields && "y" in c.fields
  }

  /** `float(v)`; `None` where Python raises ValueError. */
  function ToFloat(v: Value, tracer: Tracer): Option<real> {
    match v
    case Number(r) => Some(r)
    case Text(s) => tracer.parseFloat(s)
  }

  /** `(command['command'], float(command['x']), float(command['y']))`. */
  function CommandTuple(c: Command, tracer: Tracer): Option<PathTuple>
    requires HasDrawKeys(c)
  {
    match (ToFloat(c.fields["x"], tracer), ToFloat(c.fields["y"], tracer))
    case (Some(x), Some(y)) => Some(Draw(c.fields["command"], x, y))
    case _ => None
  }

  /** The commands that carry all three keys, in their order. */
  function Drawable(cmds: seq<Command>): (r: seq<Command>)
    ensures |r| <= |cmds|
    ensures forall i :: 0 <= i < |r| ==> HasDrawKeys(r[i])
    ensures (forall i :: 0 <= i < |cmds| ==> HasDrawKeys(cmds[i])) ==> r == cmds
  {
    if cmds == [] then []
    else
      assert forall i :: 1 <= i < |cmds| ==> cmds[1..][i - 1] == cmds[i];
      (if HasDrawKeys(cmds[0]) then [cmds[0]] else []) + Drawable(cmds[1..])
  }

  lemma {:induction false} DrawableAppend(a: seq<Command>, b: seq<Command>)
    ensures Drawable(a + b) == Drawable(a) + Drawable(b)
  {
    if a != [] {
      assert (a + b)[1..] == a[1..] + b;
      DrawableAppend(a[1..], b);
    } else {
      assert a + b == b;
    }
  }

  /** Each command contributes itself, in its place, exactly when it carries
      all three keys: the commands before it keep theirs, and so do those after. */
  lemma {:induction false} DrawableAt(cmds: seq<Command>, i: nat)
    requires i < |cmds|
    ensures Drawable(cmds) ==
      Drawable(cmds[..i]) + (if HasDrawKeys(cmds[i]) then [cmds[i]] else []) + Drawable(cmds[i + 1..])
  {
    assert cmds == cmds[..i] + ([cmds[i]] + cmds[i + 1..]);
    DrawableAppend(cmds[..i], [cmds[i]] + cmds[i + 1..]);
    DrawableAppend([cmds[i]], cmds[i + 1..]);
    assert [cmds[i]][1..] == [];
    assert Drawable([cmds[i]]) == (if HasDrawKeys(cmds[i]) then [cmds[i]] else []);
  }

  /** The inner loop over `e.path`: a command missing a key is skipped, every
      other one becomes a tuple; `None` when a `float` conversion raises. */
  function DrawTuples(cmds: seq<Command>, tracer: Tracer): (r: Option<seq<PathTuple>>)
    ensures var ds := Drawable(cmds);
      r.Some? <==> forall i :: 0 <= i < |ds| ==> CommandTuple(ds[i], tracer).Some?
    ensures var ds := Drawable(cmds);
      r.Some? ==> |r.value| == |ds| && forall i :: 0 <= i < |ds| ==> CommandTuple(ds[i], tracer) == Some(r.value[i])
  {
    if cmds == [] then Some([])
    else if !HasDrawKeys(cmds[0]) then
      assert Drawable(cmds) == Drawable(cmds[1..]);
      DrawTuples(cmds[1..], tracer)
    else
      var ds := Drawable(cmds);
      assert ds == [cmds[0]] + Drawable(cmds[1..]);
      assert forall i :: 1 <= i < |ds| ==> ds[i] == Drawable(cmds[1..])[i - 1];
      match (CommandTuple(cmds[0], tracer), DrawTuples(cmds[1..], tracer))
      case (Some(t), Some(ts)) =>
        assert forall i :: 1 <= i < |ds| ==> ([t] + ts)[i] == ts[i - 1];
        Some([t] + ts)
      case (None, _) =>
        assert ds[0] == cmds[0];
        None
      case (_, None) =>
        var j :| 0 <= j < |Drawable(cmds[1..])| && CommandTuple(Drawable(cmds[1..])[j], tracer).None?;
        assert ds[j + 1] == Drawable(cmds[1..])[j];
        None
  }

  lemma SameDrawableSameValues(a: seq<Command>, b: seq<Command>, tracer: Tracer)
    requires Drawable(a) == Drawable(b)
    requires DrawTuples(a, tracer).Some? && DrawTuples(b, tracer).Some?
    ensures DrawTuples(a, tracer).value == DrawTuples(b, tracer).value
  {
    var ds := Drawable(a);
    var x := DrawTuples(a, tracer).value;
    var y := DrawTuples(b, tracer).value;
    assert |x| == |ds| == |y|;
    forall i | 0 <= i < |ds| ensures x[i] == y[i] {
      assert CommandTuple(ds[i], tracer) == Some(x[i]);
      assert CommandTuple(ds[i], tracer) == Some(y[i]);
    }
  }

  /** The tuples depend only on the drawable commands. */
  lemma SameDrawableSameTuples(a: seq<Command>, b: seq<Command>, tracer: Tracer)
    requires Drawable(a) == Drawable(b)
    ensures DrawTuples(a, tracer) == DrawTuples(b, tracer)
  {
    assert DrawTuples(a, tracer).Some? <==> DrawTuples(b, tracer).Some?;
    if DrawTuples(a, tracer).Some? {
      SameDrawableSameValues(a, b, tracer);
    }
  }

  /** Dropping a command that lacks `command`, `x` or `y` changes nothing:
      such a command is skipped, never fatal. */
  lemma IncompleteCommandSkipped(cmds: seq<Command>, i: nat, tracer: Tracer)
    requires i < |cmds| && !HasDrawKeys(cmds[i])
    ensures DrawTuples(cmds[..i] + cmds[i + 1..], tracer) == DrawTuples(cmds, tracer)
  {
    DrawableAt(cmds, i);
    DrawableAppend(cmds[..i], cmds[i + 1..]);
    assert Drawable(cmds[..i] + cmds[i + 1..]) == Drawable(cmds);
    SameDrawableSameTuples(cmds[..i] + cmds[i + 1..], cmds, tracer);
  }

  /** The tuples handed to the tracer: the drawable commands, then `('Z',)`. */
  function PathTuples(cmds: seq<Command>, tracer: Tracer): (r: Option<seq<PathTuple>>)
    ensures r.Some? <==> DrawTuples(cmds, tracer).Some?
    ensures r.Some? ==> |r.value| == |Drawable(cmds)| + 1 && r.value[|r.value| - 1] == Close
    ensures r.Some? ==> forall i :: 0 <= i < |r.value| - 1 ==> r.value[i].Draw?
    ensures r.Some? ==> forall i :: 0 <= i < |Drawable(cmds)| ==> CommandTuple(Drawable(cmds)[i], tracer) == Some(r.value[i])
  {
    match DrawTuples(cmds, tracer)
    case None => None
    case Some(ts) => Some(ts + [Close])
  }

  /** Tracing one legacy electrode: `Failure` when a ValueError escapes,
      `Success(None)` when the tracer's ParseError or KeyError is absorbed. */
  function TraceElectrode(e: Electrode, tracer: Tracer): (r: Result<Option<ColoredPath>, Error>)
    requires e.path.Legacy?
    ensures r.Failure? <==> PathTuples(e.path.commands, tracer).None?
    ensures r.Failure? ==> r.error == BadCoordinate
    ensures r.Success? && r.value.Some? ==> r.value.value.color == DefaultColor
    ensures r.Success? ==> (r.value.Some? <==> tracer.toLoops(PathTuples(e.path.commands, tracer).value).Loops?)
    ensures r.Success? && r.value.Some? ==>
      r.value.value.loops == tracer.toLoops(PathTuples(e.path.commands, tracer).value).loops
  {
    match PathTuples(e.path.commands, tracer)
    case None => Failure(BadCoordinate)
    case Some(ts) =>
      match tracer.toLoops(ts)
      case Loops(loops) => Success(Some(ColoredPath(loops, DefaultColor)))
      case ParseError => Success(None)
      case KeyError => Success(None)
  }

  predicate AllLegacy(es: seq<Electrode>) {
    forall i :: 0 <= i < |es| ==> es[i].path.Legacy?
  }

  /** True of an electrode whose tracing succeeded with loops. */
  predicate Traces(e: Electrode, tracer: Tracer)
    requires e.path.Legacy?
  {
    var t := TraceElectrode(e, tracer);
    t.Success? && t.value.Some?
  }

  /** The loop that fills `traced_paths`: `str(id)` to the traced path, for
      every electrode whose tracing succeeded, in iteration order. */
  function TracePaths(es: seq<Electrode>, tracer: Tracer): (r: Result<seq<(string, ColoredPath)>, Error>)
    requires AllLegacy(es)
    ensures r.Failure? <==> exists i :: 0 <= i < |es| && TraceElectrode(es[i], tracer).Failure?
    ensures r.Failure? ==> r.error == BadCoordinate
  {
    if es == [] then Success([])
    else
      match (TraceElectrode(es[0], tracer), TracePaths(es[1..], tracer))
      case (Failure(err), _) => Failure(err)
      case (_, Failure(err)) =>
        var j :| 0 <= j < |es| - 1 && TraceElectrode(es[1..][j], tracer).Failure?;
        assert es[1..][j] == es[j + 1];
        Failure(err)
      case (Success(p), Success(rest)) =>
        assert forall i :: 1 <= i < |es| ==> es[i] == es[1..][i - 1];
        Success((if p.Some? then [(Name(es[0]), p.value)] else []) + rest)
  }

  /** The entry of the first electrode, if any, followed by the rest's. */
  lemma TracePathsCons(es: seq<Electrode>, tracer: Tracer)
    requires AllLegacy(es) && es != [] && TracePaths(es, tracer).Success?
    ensures TraceElectrode(es[0], tracer).Success? && TracePaths(es[1..], tracer).Success?
    ensures var head := TraceElectrode(es[0], tracer).value;
      TracePaths(es, tracer).value ==
        (if head.Some? then [(Name(es[0]), head.value)] else []) + TracePaths(es[1..], tracer).value
  {
  }

  /** Every electrode the tracer accepted has its entry under `str(id)`. */
  lemma {:induction false} TracedIsListed(es: seq<Electrode>, tracer: Tracer, i: nat)
    requires AllLegacy(es) && TracePaths(es, tracer).Success?
    requires i < |es| && Traces(es[i], tracer)
    ensures (Name(es[i]), TraceElectrode(es[i], tracer).value.value) in TracePaths(es, tracer).value
  {
    TracePathsCons(es, tracer);
    var head := TraceElectrode(es[0], tracer).value;
    var rest := TracePaths(es[1..], tracer).value;
    var front := if head.Some? then [(Name(es[0]), head.value)] else [];
    var x := (Name(es[i]), TraceElectrode(es[i], tracer).value.value);
    if i == 0 {
      assert x in front;
    } else {
      assert es[1..][i - 1] == es[i];
      TracedIsListed(es[1..], tracer, i - 1);
      assert x in rest;
    }
    assert TracePaths(es, tracer).value == front + rest;
  }

  /** Every entry is the traced path of an electrode, under its `str(id)`. */
  lemma {:induction false} ListedIsTraced(es: seq<Electrode>, tracer: Tracer, p: (string, ColoredPath))
    requires AllLegacy(es) && TracePaths(es, tracer).Success?
    requires p in TracePaths(es, tracer).value
    ensures exists i :: 0 <= i < |es| && p.0 == Name(es[i]) && TraceElectrode(es[i], tracer) == Success(Some(p.1))
  {
    TracePathsCons(es, tracer);
    var head := TraceElectrode(es[0], tracer).value;
    var rest := TracePaths(es[1..], tracer).value;
    var front := if head.Some? then [(Name(es[0]), head.value)] else [];
    if p in front {
      assert p == (Name(es[0]), head.value);
    } else {
      assert p in rest;
      ListedIsTraced(es[1..], tracer, p);
      var j :| 0 <= j < |es[1..]| && p.0 == Name(es[1..][j]) && TraceElectrode(es[1..][j], tracer) == Success(Some(p.1));
      assert es[1..][j] == es[j + 1];
    }
  }

  lemma NamesDistinctCons(h: (string, ColoredPath), rest: seq<(string, ColoredPath)>)
    requires NamesDistinct(rest)
    requires forall p :: p in rest ==> p.0 != h.0
    ensures NamesDistinct([h] + rest)
  {
    var s := [h] + rest;
    forall i, j | 0 <= i < j < |s| ensures s[i].0 != s[j].0 {
      assert s[j] == rest[j - 1];
      if i > 0 {
        assert s[i] == rest[i - 1];
      }
    }
  }

  /** Distinct electrode ids give distinct traced names. */
  lemma {:induction false} TracedNamesDistinct(es: seq<Electrode>, tracer: Tracer)
    requires AllLegacy(es) && IdsDistinct(es)
    requires TracePaths(es, tracer).Success?
    ensures NamesDistinct(TracePaths(es, tracer).value)
  {
    if es != [] {
      var tail := es[1..];
      TracedNamesDistinct(tail, tracer);
      var rest := TracePaths(tail, tracer).value;
      var head := TraceElectrode(es[0], tracer).value;
      assert TracePaths(es, tracer).value == (if head.Some? then [(Name(es[0]), head.value)] else []) + rest;
      if head.Some? {
        forall p | p in rest
          ensures p.0 != Name(es[0])
        {
          ListedIsTraced(tail, tracer, p);
          var j :| 0 <= j < |tail| && p.0 == Name(tail[j]) && TraceElectrode(tail[j], tracer) == Success(Some(p.1));
          assert tail[j] == es[j + 1];
          Decimal.NatToStringInjective(es[j + 1].id, es[0].id);
        }
        NamesDistinctCons((Name(es[0]), head.value), rest);
      } else {
        assert [] + rest == rest;
      }
    }
  }

  /** The smallest of a non-empty list of numbers, as `min` returns it. */
  function Min(xs: seq<real>): (m: real)
    requires |xs| > 0
    ensures m in xs && forall i :: 0 <= i < |xs| ==> m <= xs[i]
  {
    if |xs| == 1 then xs[0]
    else
      var rest := Min(xs[1..]);
      if xs[0] <= rest then xs[0] else rest
  }

  /** The largest of a non-empty list of numbers, as `max` returns it. */
  function Max(xs: seq<real>): (m: real)
    requires |xs| > 0
    ensures m in xs && forall i :: 0 <= i < |xs| ==> xs[i] <= m
  {
    if |xs| == 1 then xs[0]
    else
      var rest := Max(xs[1..]);
      if rest <= xs[0] then xs[0] else rest
  }

  /** The extents of all legacy electrodes together (lines 155-158). */
  function LegacyExtents(es: seq<Electrode>): (b: Box)
    requires |es| > 0 && AllLegacy(es)
    ensures forall i :: 0 <= i < |es| ==>
      && b.xMin <= es[i].path.box.xMin && es[i].path.box.xMax <= b.xMax
      && b.yMin <= es[i].path.box.yMin && es[i].path.box.yMax <= b.yMax
    ensures exists i :: 0 <= i < |es| && b.xMin == es[i].path.box.xMin
    ensures exists i :: 0 <= i < |es| && b.xMax == es[i].path.box.xMax
    ensures exists i :: 0 <= i < |es| && b.yMin == es[i].path.box.yMin
    ensures exists i :: 0 <= i < |es| && b.yMax == es[i].path.box.yMax
  {
    var xMins := seq(|es|, i requires 0 <= i < |es| => es[i].path.box.xMin);
    var xMaxs := seq(|es|, i requires 0 <= i < |es| => es[i].path.box.xMax);
    var yMins := seq(|es|, i requires 0 <= i < |es| => es[i].path.box.yMin);
    var yMaxs := seq(|es|, i requires 0 <= i < |es| => es[i].path.box.yMax);
    var b := Box(Min(xMins), Max(xMaxs), Min(yMins), Max(yMaxs));
    assert forall i :: 0 <= i < |es| ==>
      xMins[i] == es[i].path.box.xMin && xMaxs[i] == es[i].path.box.xMax
      && yMins[i] == es[i].path.box.yMin && yMaxs[i] == es[i].path.box.yMax;
    b
  }

  /** The rectangular boundary through the corners of the extents (lines 160-161). */
  function Boundary(b: Box): Loop {
    Loop([(b.xMin, b.yMin), (b.xMin, b.yMax), (b.xMax, b.yMax), (b.xMax, b.yMin)])
  }

  /** One fresh electrode per named path, ids taken from the counter in order. */
  function FreshElectrodes(paths: seq<(string, ColoredPath)>, nextId: nat): (r: ElectrodeTable)
    ensures |r| == |paths|
    ensures forall k :: 0 <= k < |paths| ==>
      r[k] == Electrode(nextId + k, Traced(paths[k].1), [], Missing)
    decreases |paths|
  {
    if paths == [] then []
    else
      var created := NewElectrode(paths[0].1, nextId);
      [created.0] + FreshElectrodes(paths[1..], created.1)
  }

  /** The name-to-id map of a group whose paths get ids `nextId`, `nextId + 1`, ... */
  function NameMap(paths: NamedPaths, nextId: nat): (m: map<string, nat>)
    ensures forall k :: 0 <= k < |paths| ==> paths[k].0 in m && m[paths[k].0] == nextId + k
    ensures forall n :: n in m ==> exists k :: 0 <= k < |paths| && paths[k].0 == n
    decreases |paths|
  {
    if paths == [] then map[]
    else
      var rest: NamedPaths := paths[1..];
      assert forall k :: 1 <= k < |paths| ==> paths[k] == rest[k - 1];
      NameMap(rest, nextId + 1)[paths[0].0 := nextId]
  }

  /** The id-to-name map of the same group. */
  function IdMap(paths: NamedPaths, nextId: nat): (m: map<nat, string>)
    ensures forall id: nat :: nextId <= id < nextId + |paths| ==> id in m && m[id] == paths[id - nextId].0
    ensures forall id :: id in m ==> nextId <= id < nextId + |paths|
    decreases |paths|
  {
    if paths == [] then map[]
    else
      var rest: NamedPaths := paths[1..];
      assert forall k :: 1 <= k < |paths| ==> paths[k] == rest[k - 1];
      IdMap(rest, nextId + 1)[nextId := paths[0].0]
  }

  /** `add_path_group`, whose code is not part of this model: assumed to
      create one electrode per path of the group in group order, with ids from
      the counter, and to rebuild both name maps from the group's names. */
  function AddPathGroup(d: Device, group: PathGroup, nextId: nat): (r: Upgraded)
    requires forall i :: 0 <= i < |d.electrodes| ==> d.electrodes[i].id < nextId
    ensures r.nextId == nextId + |group.paths|
    ensures r.device.electrodes == d.electrodes + FreshElectrodes(group.paths, nextId)
    ensures r.device.nameElectrodeMap == NameMap(group.paths, nextId)
    ensures r.device.electrodeNameMap == IdMap(group.paths, nextId)
    ensures r.device == d.(electrodes := r.device.electrodes, pathGroup := Some(group),
      electrodeNameMap := r.device.electrodeNameMap, nameElectrodeMap := r.device.nameElectrodeMap)
  {
    var made := FreshElectrodes(group.paths, nextId);
    var all := d.electrodes + made;
    assert IdsDistinct(all) by {
      forall i, j | 0 <= i < j < |all| ensures all[i].id != all[j].id {
        if j >= |d.electrodes| {
          assert all[j] == made[j - |d.electrodes|];
          if i >= |d.electrodes| {
            assert all[i] == made[i - |d.electrodes|];
          }
        }
      }
    }
    Upgraded(
      d.(electrodes := all, pathGroup := Some(group),
         electrodeNameMap := IdMap(group.paths, nextId), nameElectrodeMap := NameMap(group.paths, nextId)),
      nextId + |group.paths|)
  }

  /** `self.electrodes[eid].channels = channels`: only the electrode with that id changes. */
  function SetChannels(es: ElectrodeTable, id: nat, channels: seq<int>): (r: ElectrodeTable)
    ensures |r| == |es|
    ensures forall k :: 0 <= k < |es| ==>
      r[k] == if es[k].id == id then es[k].(channels := channels) else es[k]
  {
    var r := seq(|es|, k requires 0 <= k < |es| => if es[k].id == id then es[k].(channels := channels) else es[k]);
    assert forall k :: 0 <= k < |es| ==> r[k].id == es[k].id;
    r
  }

  /** The legacy electrode `e` hands its channels to the new electrode `id`. */
  predicate Targets(e: Electrode, names: map<string, nat>, id: nat) {
    Name(e) in names && names[Name(e)] == id
  }

  /** No two legacy electrodes hand their channels to the same new electrode. */
  predicate TargetsDistinct(legacy: seq<Electrode>, names: map<string, nat>) {
    forall i, j :: 0 <= i < j < |legacy| && Name(legacy[i]) in names && Name(legacy[j]) in names ==>
      names[Name(legacy[i])] != names[Name(legacy[j])]
  }

  /** The loop at lines 193-196: every legacy electrode whose `str(id)` is a
      traced name gives its channel list to the new electrode of that name. */
  function Reattach(legacy: seq<Electrode>, news: ElectrodeTable, names: map<string, nat>): (r: ElectrodeTable)
    ensures |r| == |news|
    ensures forall k :: 0 <= k < |news| ==> r[k].(channels := news[k].channels) == news[k]
    decreases |legacy|
  {
    if legacy == [] then news
    else
      var name := Name(legacy[0]);
      var updated := if name in names then SetChannels(news, names[name], legacy[0].channels) else news;
      Reattach(legacy[1..], updated, names)
  }

  /** A new electrode no legacy electrode targets keeps its (empty) channels. */
  lemma {:induction false} ReattachUntargeted(legacy: seq<Electrode>, news: ElectrodeTable, names: map<string, nat>, k: nat)
    requires k < |news|
    requires forall i :: 0 <= i < |legacy| ==> !Targets(legacy[i], names, news[k].id)
    ensures Reattach(legacy, news, names)[k] == news[k]
    decreases |legacy|
  {
    if legacy != [] {
      var name := Name(legacy[0]);
      var updated := if name in names then SetChannels(news, names[name], legacy[0].channels) else news;
      assert !Targets(legacy[0], names, news[k].id);
      assert updated[k] == news[k];
      assert forall i :: 1 <= i < |legacy| ==> legacy[i] == legacy[1..][i - 1];
      ReattachUntargeted(legacy[1..], updated, names, k);
    }
  }

  /** With no competing targets, the new electrode gets exactly the channel
      list of the legacy electrode that targets it. */
  lemma {:induction false} ReattachCopies(legacy: seq<Electrode>, news: ElectrodeTable, names: map<string, nat>, k: nat, i: nat)
    requires TargetsDistinct(legacy, names)
    requires k < |news| && i < |legacy| && Targets(legacy[i], names, news[k].id)
    ensures Reattach(legacy, news, names)[k].channels == legacy[i].channels
    decreases |legacy|
  {
    var name := Name(legacy[0]);
    var updated := if name in names then SetChannels(news, names[name], legacy[0].channels) else news;
    var rest := legacy[1..];
    assert forall j :: 1 <= j < |legacy| ==> legacy[j] == rest[j - 1];
    if i == 0 {
      assert updated[k].channels == legacy[0].channels;
      forall j | 0 <= j < |rest| ensures !Targets(rest[j], names, updated[k].id) {
        assert rest[j] == legacy[j + 1];
      }
      ReattachUntargeted(rest, updated, names, k);
    } else {
      assert updated[k].id == news[k].id;
      assert rest[i - 1] == legacy[i];
      ReattachCopies(rest, updated, names, k, i - 1);
    }
  }

  lemma {:induction false} NameMapInverse(paths: NamedPaths, nextId: nat)
    ensures var names := NameMap(paths, nextId); var ids := IdMap(paths, nextId);
      forall n :: n in names ==> names[n] in ids && ids[names[n]] == n
  {
    var names := NameMap(paths, nextId);
    var ids := IdMap(paths, nextId);
    forall n | n in names
      ensures names[n] in ids && ids[names[n]] == n
    {
      var k :| 0 <= k < |paths| && paths[k].0 == n;
      assert names[n] == nextId + k;
    }
  }

  lemma {:induction false} IdMapInverseAt(paths: NamedPaths, nextId: nat, id: nat)
    requires id in IdMap(paths, nextId)
    ensures IdMap(paths, nextId)[id] in NameMap(paths, nextId)
    ensures NameMap(paths, nextId)[IdMap(paths, nextId)[id]] == id
  {
    var k: nat := id - nextId;
    assert k < |paths| && IdMap(paths, nextId)[id] == paths[k].0;
    assert NameMap(paths, nextId)[paths[k].0] == nextId + k;
  }

  lemma {:induction false} IdMapInverse(paths: NamedPaths, nextId: nat)
    ensures var names := NameMap(paths, nextId); var ids := IdMap(paths, nextId);
      forall id :: id in ids ==> ids[id] in names && names[ids[id]] == id
  {
    forall id | id in IdMap(paths, nextId)
      ensures IdMap(paths, nextId)[id] in NameMap(paths, nextId)
      ensures NameMap(paths, nextId)[IdMap(paths, nextId)[id]] == id
    {
      IdMapInverseAt(paths, nextId, id);
    }
  }

  lemma IdMapNamesFresh(paths: NamedPaths, nextId: nat)
    ensures IdMap(paths, nextId).Keys == Ids(FreshElectrodes(paths, nextId))
  {
    var ids := IdMap(paths, nextId);
    var es := FreshElectrodes(paths, nextId);
    forall id | id in ids ensures id in Ids(es) {
      assert es[id - nextId] in es;
    }
    forall id | id in Ids(es) ensures id in ids {
      var e :| e in es && e.id == id;
      var k :| 0 <= k < |es| && es[k] == e;
    }
  }

  /** The group's two maps are inverse and name exactly the fresh electrodes. */
  lemma GroupMapsConsistent(d: Device, paths: NamedPaths, nextId: nat)
    requires d.electrodes == FreshElectrodes(paths, nextId)
    requires d.nameElectrodeMap == NameMap(paths, nextId)
    requires d.electrodeNameMap == IdMap(paths, nextId)
    ensures MapsConsistent(d)
  {
    NameMapInverse(paths, nextId);
    IdMapInverse(paths, nextId);
    IdMapNamesFresh(paths, nextId);
  }

  /** Re-attachment only touches channels, so the maps stay consistent. */
  lemma ReattachKeepsMaps(d: Device, es: ElectrodeTable)
    requires MapsConsistent(d) && |es| == |d.electrodes|
    requires forall k :: 0 <= k < |es| ==> es[k].id == d.electrodes[k].id
    ensures MapsConsistent(d.(electrodes := es))
  {
    assert Ids(es) == Ids(d.electrodes) by {
      forall id | id in Ids(es) ensures id in Ids(d.electrodes) {
        var k :| 0 <= k < |es| && es[k].id == id;
        assert d.electrodes[k] in d.electrodes;
      }
      forall id | id in Ids(d.electrodes) ensures id in Ids(es) {
        var k :| 0 <= k < |d.electrodes| && d.electrodes[k].id == id;
        assert es[k] in es;
      }
    }
  }

  /** Lines 188-197 once tracing is done: group the traced paths, replace the
      electrodes by fresh ones and re-attach the legacy channels by name. */
  function Rebuild(d: Device, traced: NamedPaths, boundary: Loop, nextId: nat): (u: Upgraded)
    ensures u.device == d.(electrodes := u.device.electrodes, pathGroup := Some(PathGroup(traced, boundary)),
                           electrodeNameMap := u.device.electrodeNameMap, nameElectrodeMap := u.device.nameElectrodeMap)
    ensures u.nextId == nextId + |u.device.electrodes| && |u.device.electrodes| == |traced|
    ensures forall k :: 0 <= k < |traced| ==>
      && u.device.electrodes[k].id == nextId + k
      && u.device.electrodes[k].path == Traced(traced[k].1)
      && u.device.electrodes[k].state == Missing
    ensures u.device.nameElectrodeMap == NameMap(traced, nextId)
    ensures MapsConsistent(u.device)
  {
    var group := PathGroup(traced, boundary);
    var added := AddPathGroup(d.(electrodes := []), group, nextId);
    GroupMapsConsistent(added.device, traced, nextId);
    var rebuilt := Reattach(d.electrodes, added.device.electrodes, added.device.nameElectrodeMap);
    ReattachKeepsMaps(added.device, rebuilt);
    Upgraded(added.device.(electrodes := rebuilt), added.nextId)
  }

  /** The new electrodes of `Rebuild` are the group's fresh electrodes after
      the channel hand-over. */
  lemma RebuildIsReattach(d: Device, traced: NamedPaths, boundary: Loop, nextId: nat)
    ensures Rebuild(d, traced, boundary, nextId).device.electrodes ==
      Reattach(d.electrodes, FreshElectrodes(traced, nextId), NameMap(traced, nextId))
  {
    var added := AddPathGroup(d.(electrodes := []), PathGroup(traced, boundary), nextId);
    assert added.device.electrodes == FreshElectrodes(traced, nextId);
  }

  /** The step to schema 0.3 (lines 151-198): trace every legacy electrode,
      group the traced ones inside the boundary of all extents, replace the
      electrodes by fresh ones and re-attach channels by name. */
  function StepTo03(d: Device, nextId: nat, tracer: Tracer): (r: Result<Upgraded, Error>)
    ensures r.Failure? <==>
      || !AllLegacy(d.electrodes)
      || |d.electrodes| == 0
      || exists i :: 0 <= i < |d.electrodes| && TraceElectrode(d.electrodes[i], tracer).Failure?
    ensures r.Failure? && !AllLegacy(d.electrodes) ==> r.error == NotLegacyGeometry
    ensures r.Failure? && AllLegacy(d.electrodes) && |d.electrodes| == 0 ==> r.error == EmptyElectrodeSet
    ensures r.Failure? && AllLegacy(d.electrodes) && |d.electrodes| > 0 ==> r.error == BadCoordinate
    ensures r.Success? ==>
      var u := r.value;
      && u.device == d.(version := Present(V03), electrodes := u.device.electrodes, pathGroup := u.device.pathGroup,
                        electrodeNameMap := u.device.electrodeNameMap, nameElectrodeMap := u.device.nameElectrodeMap)
      && u.nextId == nextId + |u.device.electrodes|
      && (forall k :: 0 <= k < |u.device.electrodes| ==>
            u.device.electrodes[k].id == nextId + k && u.device.electrodes[k].path.Traced?
            && u.device.electrodes[k].state == Missing)
      && MapsConsistent(u.device)
      && u.device.pathGroup.Some? && u.device.pathGroup.value.boundary == Boundary(LegacyExtents(d.electrodes))
  {
    if !AllLegacy(d.electrodes) then Failure(NotLegacyGeometry)
    else if |d.electrodes| == 0 then Failure(EmptyElectrodeSet)
    else
      var boundary := Boundary(LegacyExtents(d.electrodes));
      match TracePaths(d.electrodes, tracer)
      case Failure(err) => Failure(err)
      case Success(traced) =>
        TracedNamesDistinct(d.electrodes, tracer);
        var u := Rebuild(d.(version := Present(V03)), traced, boundary, nextId);
        assert u.device.pathGroup == Some(PathGroup(traced, boundary));
        Success(u)
  }

  /** The step to 0.3 as the class is written. `DmfDevice` defines no
      `add_path_group`, so once every electrode has been traced, line 191
      raises AttributeError: the step never succeeds, and it fails in
      exactly the cases where `StepTo03`, which supplies the method,
      succeeds. */
  function StepTo03AsWritten(d: Device, nextId: nat, tracer: Tracer): (r: Result<Upgraded, Error>)
    ensures r.Failure?
    ensures r.error == NoAddPathGroup <==> StepTo03(d, nextId, tracer).Success?
    ensures r.error != NoAddPathGroup ==> r == StepTo03(d, nextId, tracer)
  {
    if !AllLegacy(d.electrodes) then Failure(NotLegacyGeometry)
    else if |d.electrodes| == 0 then Failure(EmptyElectrodeSet)
    else
      match TracePaths(d.electrodes, tracer)
      case Failure(err) => Failure(err)
      case Success(_) => Failure(NoAddPathGroup)
  }

  /** A version-0 document with one electrode whose commands are all
      incomplete, and a tracer that rejects it: the class as written raises
      AttributeError, the step with `add_path_group` supplied upgrades it. */
  lemma AsWrittenRejectsLegacyDocument()
    ensures var e := Electrode(0, Legacy([Command(map["x" := Number(1.0)])], Box(0.0, 1.0, 0.0, 1.0)), [7], Missing);
      var d := NewDevice().(version := Present(Oldest), electrodes := [e]);
      var tracer := Tracer(ts => ParseError, t => None);
      && StepTo03AsWritten(d, 0, tracer) == Failure(NoAddPathGroup)
      && StepTo03(d, 0, tracer).Success?
  {
    var e := Electrode(0, Legacy([Command(map["x" := Number(1.0)])], Box(0.0, 1.0, 0.0, 1.0)), [7], Missing);
    var d := NewDevice().(version := Present(Oldest), electrodes := [e]);
    var tracer := Tracer(ts => ParseError, t => None);
    assert !HasDrawKeys(e.path.commands[0]);
    assert Drawable(e.path.commands) == [] by {
      assert e.path.commands[1..] == [];
    }
    assert TraceElectrode(e, tracer) == Success(None);
    assert d.electrodes[1..] == [];
    assert TracePaths(d.electrodes, tracer).Success?;
  }

  /** Distinct names are mapped to distinct ids. */
  lemma {:induction false} NameMapInjective(paths: NamedPaths, nextId: nat, a: string, b: string)
    requires a in NameMap(paths, nextId) && b in NameMap(paths, nextId) && a != b
    ensures NameMap(paths, nextId)[a] != NameMap(paths, nextId)[b]
  {
    var names := NameMap(paths, nextId);
    var ka :| 0 <= ka < |paths| && paths[ka].0 == a;
    var kb :| 0 <= kb < |paths| && paths[kb].0 == b;
    assert names[a] == nextId + ka && names[b] == nextId + kb;
  }

  /** The step to 0.3 succeeds once every electrode is legacy and traces
      without a ValueError, and is then the rebuild from the traced paths. */
  lemma StepTo03Success(d: Device, nextId: nat, tracer: Tracer)
    requires AllLegacy(d.electrodes) && |d.electrodes| > 0 && TracePaths(d.electrodes, tracer).Success?
    ensures StepTo03(d, nextId, tracer).Success?
    ensures NamesDistinct(TracePaths(d.electrodes, tracer).value)
    ensures StepTo03(d, nextId, tracer).value ==
      Rebuild(d.(version := Present(V03)), TracePaths(d.electrodes, tracer).value, Boundary(LegacyExtents(d.electrodes)), nextId)
  {
    TracedNamesDistinct(d.electrodes, tracer);
  }

  /** Legacy electrodes with distinct ids never compete for one new electrode. */
  lemma LegacyTargetsDistinct(es: ElectrodeTable, traced: NamedPaths, nextId: nat)
    ensures TargetsDistinct(es, NameMap(traced, nextId))
  {
    var names := NameMap(traced, nextId);
    forall a, b | 0 <= a < b < |es| && Name(es[a]) in names && Name(es[b]) in names
      ensures names[Name(es[a])] != names[Name(es[b])]
    {
      Decimal.NatToStringInjective(es[a].id, es[b].id);
      NameMapInjective(traced, nextId, Name(es[a]), Name(es[b]));
    }
  }

  /** A traced legacy electrode is mapped to the fresh electrode at the
      position of its path in the group. */
  lemma TracedIsMapped(es: ElectrodeTable, tracer: Tracer, nextId: nat, i: nat) returns (k: nat)
    requires AllLegacy(es) && TracePaths(es, tracer).Success? && NamesDistinct(TracePaths(es, tracer).value)
    requires i < |es| && Traces(es[i], tracer)
    ensures var traced: NamedPaths := TracePaths(es, tracer).value;
      && k < |traced| && traced[k] == (Name(es[i]), TraceElectrode(es[i], tracer).value.value)
      && Name(es[i]) in NameMap(traced, nextId) && NameMap(traced, nextId)[Name(es[i])] == nextId + k
  {
    var traced: NamedPaths := TracePaths(es, tracer).value;
    var p := TraceElectrode(es[i], tracer).value.value;
    TracedIsListed(es, tracer, i);
    k :| 0 <= k < |traced| && traced[k] == (Name(es[i]), p);
  }

  /** Only traced legacy electrodes are mapped. */
  lemma MappedIsTraced(es: ElectrodeTable, tracer: Tracer, nextId: nat, i: nat)
    requires AllLegacy(es) && TracePaths(es, tracer).Success? && NamesDistinct(TracePaths(es, tracer).value)
    requires i < |es| && Name(es[i]) in NameMap(TracePaths(es, tracer).value, nextId)
    ensures Traces(es[i], tracer)
  {
    var traced: NamedPaths := TracePaths(es, tracer).value;
    var k :| 0 <= k < |traced| && traced[k].0 == Name(es[i]);
    ListedIsTraced(es, tracer, traced[k]);
    var j :| 0 <= j < |es| && traced[k].0 == Name(es[j]) && TraceElectrode(es[j], tracer) == Success(Some(traced[k].1));
    Decimal.NatToStringInjective(es[j].id, es[i].id);
    assert j == i;
  }

  /** After the step to 0.3 a legacy electrode's `str(id)` is a key of the
      name map exactly when its tracing succeeded: an electrode the tracer
      rejected is simply absent and contributes nothing. */
  lemma {:induction false} RebaseMapsTracedOnly(d: Device, nextId: nat, tracer: Tracer, i: nat)
    requires AllLegacy(d.electrodes) && TracePaths(d.electrodes, tracer).Success?
    requires i < |d.electrodes|
    ensures StepTo03(d, nextId, tracer).Success?
    ensures Name(d.electrodes[i]) in StepTo03(d, nextId, tracer).value.device.nameElectrodeMap
      <==> Traces(d.electrodes[i], tracer)
  {
    StepTo03Success(d, nextId, tracer);
    var es := d.electrodes;
    var traced: NamedPaths := TracePaths(es, tracer).value;
    if Traces(es[i], tracer) {
      var k := TracedIsMapped(es, tracer, nextId, i);
    }
    if Name(es[i]) in NameMap(traced, nextId) {
      MappedIsTraced(es, tracer, nextId, i);
    }
  }

  /** The fresh electrode at position `k` of the group receives the channels
      of the one legacy electrode that targets its id. */
  lemma RebuildCopiesChannels(d: Device, traced: NamedPaths, boundary: Loop, nextId: nat, k: nat, i: nat)
    requires k < |traced| && i < |d.electrodes|
    requires Targets(d.electrodes[i], NameMap(traced, nextId), nextId + k)
    ensures var u := Rebuild(d, traced, boundary, nextId);
      && u.device.electrodes[k].channels == d.electrodes[i].channels
      && u.device.electrodes[k].path == Traced(traced[k].1)
  {
    var names := NameMap(traced, nextId);
    var made := FreshElectrodes(traced, nextId);
    assert made[k].id == nextId + k;
    LegacyTargetsDistinct(d.electrodes, traced, nextId);
    ReattachCopies(d.electrodes, made, names, k, i);
    RebuildIsReattach(d, traced, boundary, nextId);
  }

  /** The channel hand-over of `Rebuild`, seen from the legacy electrode
      whose name is the `k`-th traced path. */
  lemma {:induction false} RebuildReattaches(d: Device, traced: NamedPaths, boundary: Loop, nextId: nat, i: nat, k: nat)
    requires i < |d.electrodes| && k < |traced| && traced[k].0 == Name(d.electrodes[i])
    ensures var u := Rebuild(d, traced, boundary, nextId);
      && Name(d.electrodes[i]) in u.device.nameElectrodeMap
      && var eid := u.device.nameElectrodeMap[Name(d.electrodes[i])];
         && eid == nextId + k && k < |u.device.electrodes|
         && u.device.electrodes[k].channels == d.electrodes[i].channels
         && u.device.electrodes[k].path == Traced(traced[k].1)
  {
    RebuildCopiesChannels(d, traced, boundary, nextId, k, i);
  }

  /** After the step to 0.3 the new electrode under a traced legacy
      electrode's name is fresh and carries the legacy electrode's channel
      list. */
  lemma {:induction false} RebaseReattachesChannels(d: Device, nextId: nat, tracer: Tracer, i: nat)
    requires AllLegacy(d.electrodes) && TracePaths(d.electrodes, tracer).Success?
    requires i < |d.electrodes| && Traces(d.electrodes[i], tracer)
    ensures StepTo03(d, nextId, tracer).Success?
    ensures var u := StepTo03(d, nextId, tracer).value;
      && Name(d.electrodes[i]) in u.device.nameElectrodeMap
      && var eid := u.device.nameElectrodeMap[Name(d.electrodes[i])];
         && nextId <= eid < nextId + |u.device.electrodes|
         && u.device.electrodes[eid - nextId].channels == d.electrodes[i].channels
  {
    StepTo03Success(d, nextId, tracer);
    var u := StepTo03(d, nextId, tracer).value;
    var k := TracedIsMapped(d.electrodes, tracer, nextId, i);
    var traced: NamedPaths := TracePaths(d.electrodes, tracer).value;
    var boundary := Boundary(LegacyExtents(d.electrodes));
    assert u == Rebuild(d.(version := Present(V03)), traced, boundary, nextId);
    RebuildReattaches(d.(version := Present(V03)), traced, boundary, nextId, i, k);
    assert u.device.nameElectrodeMap[Name(d.electrodes[i])] - nextId == k;
  }

  /** ... and that new electrode carries the legacy electrode's traced outline. */
  lemma {:induction false} RebaseKeepsOutline(d: Device, nextId: nat, tracer: Tracer, i: nat)
    requires AllLegacy(d.electrodes) && TracePaths(d.electrodes, tracer).Success?
    requires i < |d.electrodes| && Traces(d.electrodes[i], tracer)
    ensures StepTo03(d, nextId, tracer).Success?
    ensures var u := StepTo03(d, nextId, tracer).value;
      && Name(d.electrodes[i]) in u.device.nameElectrodeMap
      && var eid := u.device.nameElectrodeMap[Name(d.electrodes[i])];
         && nextId <= eid < nextId + |u.device.electrodes|
         && u.device.electrodes[eid - nextId].path == Traced(TraceElectrode(d.electrodes[i], tracer).value.value)
  {
    StepTo03Success(d, nextId, tracer);
    var u := StepTo03(d, nextId, tracer).value;
    var k := TracedIsMapped(d.electrodes, tracer, nextId, i);
    var traced: NamedPaths := TracePaths(d.electrodes, tracer).value;
    var boundary := Boundary(LegacyExtents(d.electrodes));
    assert u == Rebuild(d.(version := Present(V03)), traced, boundary, nextId);
    RebuildReattaches(d.(version := Present(V03)), traced, boundary, nextId, i, k);
    assert u.device.nameElectrodeMap[Name(d.electrodes[i])] - nextId == k;
  }

  /** A traced legacy electrode behind every name of the group's map. */
  lemma NameMapKeysTraced(es: seq<Electrode>, tracer: Tracer, traced: NamedPaths, nextId: nat, n: string)
    requires AllLegacy(es) && TracePaths(es, tracer) == Success(traced)
    requires n in NameMap(traced, nextId)
    ensures exists i :: 0 <= i < |es| && n == Name(es[i]) && Traces(es[i], tracer)
  {
    var k :| 0 <= k < |traced| && traced[k].0 == n;
    ListedIsTraced(es, tracer, traced[k]);
  }

  /** The name map after the step holds nothing but the names of traced
      legacy electrodes. This rests on the assumed contract of `AddPathGroup`,
      which rebuilds both name maps from the group; lines 189-190 themselves
      replace only the electrode dict. */
  lemma {:induction false} RebaseReplacesNameMap(d: Device, nextId: nat, tracer: Tracer, n: string)
    requires AllLegacy(d.electrodes) && |d.electrodes| > 0 && TracePaths(d.electrodes, tracer).Success?
    ensures StepTo03(d, nextId, tracer).Success?
    ensures n in StepTo03(d, nextId, tracer).value.device.nameElectrodeMap ==>
      exists i :: 0 <= i < |d.electrodes| && n == Name(d.electrodes[i]) && Traces(d.electrodes[i], tracer)
  {
    StepTo03Success(d, nextId, tracer);
    var u := StepTo03(d, nextId, tracer).value;
    var traced: NamedPaths := TracePaths(d.electrodes, tracer).value;
    var boundary := Boundary(LegacyExtents(d.electrodes));
    assert u == Rebuild(d.(version := Present(V03)), traced, boundary, nextId);
    if n in u.device.nameElectrodeMap {
      assert n in NameMap(traced, nextId);
      NameMapKeysTraced(d.electrodes, tracer, traced, nextId, n);
    }
  }
}

=== FILE: versions.dfy ===
/** Schema versions of a device document and the milestones the upgrade knows. */
module Versions {

  /** `major.minor.micro`; a short form such as `0.1` has the missing parts zero. */
  datatype Version = Version(major: nat, minor: nat, micro: nat)

  /** Lexicographic order on the three parts. */
  predicate Less(a: Version, b: Version) {
    || a.major < b.major
    || (a.major == b.major && a.minor < b.minor)
    || (a.major == b.major && a.minor == b.minor && a.micro < b.micro)
  }

  /** The version assumed for a document that carries none (`'0'`). */
  const Oldest: Version := Version(0, 0, 0)

  /** Milestones `0.1`, `0.2` and `0.3`. */
  const V01: Version := Version(0, 1, 0)
  const V02: Version := Version(0, 2, 0)
  const V03: Version := Version(0, 3, 0)

  /** `DmfDevice.class_version`: the schema this code writes. */
  const Current: Version := V03

  /** The milestones in the order the upgrade applies them. */
  const Milestones: seq<Version> := [V01, V02, V03]

  /** `Less` is a strict total order, so exactly one of "newer", "older"
      and "equal" holds of a document version against `Current`. */
  lemma LessIsStrictTotalOrder(a: Version, b: Version, c: Version)
    ensures !Less(a, a)
    ensures Less(a, b) ==> !Less(b, a)
    ensures Less(a, b) && Less(b, c) ==> Less(a, c)
    ensures a == b || Less(a, b) || Less(b, a)
  {
  }

  /** The milestones strictly increase and end at the current version. */
  lemma MilestonesIncrease()
    ensures forall i, j :: 0 <= i < j < |Milestones| ==> Less(Milestones[i], Milestones[j])
    ensures Milestones[|Milestones| - 1] == Current
    ensures Less(Oldest, Milestones[0])
  {
  }
}

=== FILE: wrappers.dfy ===
/** Failure-carrying results used throughout the model. */
module Wrappers {

  /** A value that may be absent (Python's `None`). */
  datatype Option<+T> = None | Some(value: T)

  /** Either a value or the exception the Python code would raise. */
  datatype Result<+R, +E> = Success(value: R) | Failure(error: E)
}
